=== FILE: README.md ===
# MicroPsi world adapters and user management, in Dafny

This project models two sequential parts of the MicroPsi2 service.

1. **World adapters** (`micropsi_core/world/worldadapter.py`). A world adapter is
   the buffer between a node net and a world.
   - Datasources carry sensor values into the net.
   - Datatargets carry actuator values out of the net.
   - Datatarget feedback reports whether an action succeeded.
   - Two shapes are modelled:
     - `WorldAdapters` models the dictionary-based `WorldAdapter`. It holds three
       maps. Names are exposed sorted, and bulk access is positional against that
       order. The module also covers the example `Default` adapter.
     - `ArrayWorldAdapters` models `ArrayWorldAdapter`. It holds parallel name
       lists and value arrays. Names are resolved with `list.index`.
   - `StringOrder` gives Python's string order and `sorted` on a dictionary's keys.
2. **User and session management** (`micropsi_server/user.py`).
   - `Users` models the `UserManager` state machine: a `users` map and a
     `sessions` map. Each operation is a pure function from state to
     (result, new state).
   - `Users` also holds the `USER_ROLES` permission table.
   - `UrlProofId` models the validator `check_for_url_proof_id`.

The source raises Python exceptions. The model returns them as values
(`Outcome.Result`, `Outcome.PyError`):

- KeyError for a missing dictionary key.
- ValueError for `list.index` of an unknown name and for a numpy slice that
  cannot take the values.
- IndexError for a position past the end.
- AssertionError for a failed length `assert`.

Foreign calls and nondeterminism become parameters:

- md5 is `Users.Digest`, an uninterpreted function parameter.
- The random session token is a parameter. It must be non-empty and not
  already in `sessions`.
- The current time is a parameter of the session-refresh path.
- `random.uniform(0, 1)` in the `Default` adapter is a parameter in [0, 1].
- A concrete adapter's `update_data_sources_and_targets` hook is an arbitrary
  function from adapter state to adapter state.

`user.py` is Python 2 code, as its `print` statements and `except ValueError, err`
syntax show. Its strings are byte strings. So `strip()` removes the six ASCII
whitespace characters, and `lower()` folds only A–Z.

Values are exact `real`s. The source's values are Python floats and numpy
float64s, whose additions round. So the model states the order in which
additions happen, not float results; see "## Left out".

The model differs from a plain reading of the code in a few places:

- A dict adapter's `set_datatarget_values` with a short list writes the targets
  it reaches, then raises IndexError. `WorldAdapters.SetDatatargetValues`
  returns that partly written state with the error. It does not forbid short
  lists.
- The array adapter's range reads use Python slice rules. A range that runs past
  the end is truncated. With a negative length the stop is `index + length`.
  That stop is negative once `-length` exceeds `index`, and a negative stop
  counts back from the end of the array. Either way, the slice is empty when
  the stop is not after the start, as for a stop that is not negative but lies
  before the start.
- The array adapter's range writes follow numpy's slice assignment. A slice
  that starts at or past the end of a short array is empty. It accepts an
  empty or one-element list and changes nothing.
- `start_session` without `keep_logged_in_forever` only refreshes the user's
  deadline, and no user ever gets one, so such a session never expires.
  `Users.StartSessionAsWritten` keeps the source's behaviour. `Users.StartSession`
  sets the deadline, and the other lemmas use it. See Findings.
- The "Full" row of `USER_ROLES` is kept twice:
  - `UserRolesAsWritten` copies it literally, missing comma included.
  - `UserRoles` is the corrected table, and the permission lookups use it.
  - See Findings.

## Model

| member | source | states |
|---|---|---|
| StringOrder.SortedSet | micropsi_core/world/worldadapter.py:93 | `sorted(list(keys))` lists every key exactly once, in strictly ascending Python string order, and nothing else |
| WorldAdapters.FreshExposesNothing | micropsi_core/world/worldadapter.py:71-74 | a new adapter, with three empty dictionaries, exposes no names, reads no datasource value and feedback 0, has an empty bulk feedback read, and ignores additions |
| WorldAdapters.AvailableDatasources | micropsi_core/world/worldadapter.py:91-93 | the exposed datasource names are exactly the dictionary's keys, sorted, without duplicates |
| WorldAdapters.AvailableDatatargets | micropsi_core/world/worldadapter.py:95-97 | the exposed datatarget names are exactly the dictionary's keys, sorted, without duplicates |
| WorldAdapters.GetDatasourceValue | micropsi_core/world/worldadapter.py:99-101 | a single read yields a value exactly for the exposed names, and that value is the one stored under the name; any other name gives `None` |
| WorldAdapters.GetDatasourceValues | micropsi_core/world/worldadapter.py:103-105 | the bulk read has one value per exposed datasource name |
| WorldAdapters.DatasourceValuesAligned | micropsi_core/world/worldadapter.py:99-105 | element i of the bulk read is the single read of the i-th sorted name, and so the value stored under that name |
| WorldAdapters.AddToDatatarget | micropsi_core/world/worldadapter.py:107-110 | a known target grows by `value` and every other target is unchanged; an unknown name changes nothing, adds no key and raises nothing |
| WorldAdapters.AddToDatatargetAccumulates | micropsi_core/world/worldadapter.py:107-110 | two additions to a known target apply in order, leaving `(v + a) + b`; every other target is untouched |
| WorldAdapters.AddToUnknownDatatargetIgnored | micropsi_core/world/worldadapter.py:107-110 | additions to an unknown target leave the whole adapter unchanged |
| WorldAdapters.AssignInOrder | micropsi_core/world/worldadapter.py:114-115 | the loop writes `values[i]` to the i-th name for every position both lists have; every other name keeps its value and the key set is unchanged |
| WorldAdapters.SetDatatargetValues | micropsi_core/world/worldadapter.py:112-115 | the i-th sorted target receives `values[i]` and the key set is unchanged; a list shorter than the targets raises IndexError, and the targets from its end onwards keep their old values |
| WorldAdapters.GetDatatargetFeedbackValue | micropsi_core/world/worldadapter.py:117-119 | a name with no recorded feedback reads as 0 |
| WorldAdapters.GetDatatargetFeedbackValues | micropsi_core/world/worldadapter.py:121-123 | the bulk feedback read succeeds exactly when every datatarget has feedback; otherwise it raises KeyError |
| WorldAdapters.FeedbackValuesAligned | micropsi_core/world/worldadapter.py:117-123 | a successful bulk feedback read agrees, position by position, with the single-name read |
| WorldAdapters.SetDatatargetFeedbackValue | micropsi_core/world/worldadapter.py:125-127 | feedback can be recorded for any name; sources and targets are untouched |
| WorldAdapters.FeedbackRoundTrip | micropsi_core/world/worldadapter.py:117-127 | a read after a set returns the value just set, and other names' feedback stays as it was |
| WorldAdapters.ResetDatatargets | micropsi_core/world/worldadapter.py:134-137 | every datatarget becomes 0; no key is added or removed |
| WorldAdapters.Update | micropsi_core/world/worldadapter.py:129-137 | after the hook runs, every datatarget is 0 and the key set is the one the hook left; sources and feedback are the hook's |
| WorldAdapters.DefaultHook | micropsi_core/world/worldadapter.py:160-165 | a nonzero "echo" target is copied to its feedback; "static_on" becomes 1; "random" becomes the draw; every other datasource and all targets are untouched |
| WorldAdapters.DefaultHookReads | micropsi_core/world/worldadapter.py:160-165 | after the `Default` hook an agent reads 1 from "static_on", the draw from "random", and any other source as before |
| WorldAdapters.DefaultAdapter | micropsi_core/world/worldadapter.py:153-158 | a new `Default` adapter has sources random, static_off and static_on, with static_on 1 and static_off 0; its one target "echo" is 0 and has feedback 0 |
| WorldAdapters.DefaultUpdate | micropsi_core/world/worldadapter.py:129-165 | a `Default` world iteration keeps the "echo" target |
| WorldAdapters.DefaultEchoesAction | micropsi_core/world/worldadapter.py:160-163 | a nonzero action written to "echo" comes back as its feedback after one iteration, and the target is cleared |
| ArrayWorldAdapters.FreshIsAligned | micropsi_core/world/worldadapter.py:180-194 | a new adapter is aligned and knows no name; its first added datasource gets index 0 and reads back its value |
| ArrayWorldAdapters.IndexOf | micropsi_core/world/worldadapter.py:233-239 | `list.index` finds the first occurrence of a name, and finds nothing exactly when the name is absent |
| ArrayWorldAdapters.Slice | micropsi_core/world/worldadapter.py:271 | a slice wholly inside the array is exactly that part; no slice is longer than the array |
| ArrayWorldAdapters.SliceNegativeStop | micropsi_core/world/worldadapter.py:268-281 | a negative stop ends the slice that many elements before the end; the slice is empty when that point is not after the start |
| ArrayWorldAdapters.SliceTruncates | micropsi_core/world/worldadapter.py:268-271 | a range read that asks for more values than remain returns the rest of the array |
| ArrayWorldAdapters.AddDatasource | micropsi_core/world/worldadapter.py:189-194 | appends one name and one value; returns the old length as the new index; alignment is kept |
| ArrayWorldAdapters.AddDatatarget | micropsi_core/world/worldadapter.py:196-202 | appends one name, one value and one feedback value, both values set to the initial value; returns the old length; alignment is kept |
| ArrayWorldAdapters.AddDatasourceThenGet | micropsi_core/world/worldadapter.py:189-244 | a new name reads back its initial value; a name already present still reads its earlier value |
| ArrayWorldAdapters.AddDatatargetThenGet | micropsi_core/world/worldadapter.py:196-254 | a new target reads back its initial value, both as its value and as its feedback |
| ArrayWorldAdapters.BatchValues | micropsi_core/world/worldadapter.py:209-210 | batch values are the caller's list when its length matches the names; otherwise they are zeros |
| ArrayWorldAdapters.AddDatasources | micropsi_core/world/worldadapter.py:204-212 | appends the names and their batch values; returns `range(offset, offset + len(names))` with offset the old length; alignment is kept |
| ArrayWorldAdapters.AddDatatargets | micropsi_core/world/worldadapter.py:214-223 | appends the names; appends the batch values to both the values and the feedback; returns the index range; alignment is kept |
| ArrayWorldAdapters.AddDatasourcesRangeHoldsBatch | micropsi_core/world/worldadapter.py:204-212 | each index in the returned range holds the matching new name and its value |
| ArrayWorldAdapters.GetDatasourceIndex | micropsi_core/world/worldadapter.py:233-235 | a known name gives the first position holding that name; an unknown name raises ValueError |
| ArrayWorldAdapters.GetDatatargetIndex | micropsi_core/world/worldadapter.py:237-239 | a known name gives the first position holding that name; an unknown name raises ValueError |
| ArrayWorldAdapters.Lookup | micropsi_core/world/worldadapter.py:241-254 | a read succeeds exactly when the name is known and its first position lies inside the array, and yields the value there; an unknown name raises ValueError |
| ArrayWorldAdapters.Store | micropsi_core/world/worldadapter.py:283-301 | `values[idx] = value` succeeds exactly inside the array, sets that one position and keeps the rest; past the end it raises IndexError |
| ArrayWorldAdapters.StoreRange | micropsi_core/world/worldadapter.py:303-316 | slice assignment succeeds exactly when the values fit, or when the slice starts past the end and the list has at most one element; a fitting write sets exactly positions idx..idx+len-1, and a write past the end changes nothing; otherwise ValueError |
| ArrayWorldAdapters.GetDatasourceValue | micropsi_core/world/worldadapter.py:241-244 | in an aligned adapter the read succeeds exactly for known names |
| ArrayWorldAdapters.GetDatatargetValue | micropsi_core/world/worldadapter.py:246-249 | in an aligned adapter the read succeeds exactly for known names |
| ArrayWorldAdapters.GetDatatargetFeedbackValue | micropsi_core/world/worldadapter.py:251-254 | in an aligned adapter the read succeeds exactly for known names |
| ArrayWorldAdapters.SetDatasourceValue | micropsi_core/world/worldadapter.py:283-286 | the write succeeds exactly for a known name whose first position lies in the array (in an aligned adapter: for every known name); that position becomes `value`, and nothing else changes |
| ArrayWorldAdapters.SetDatatargetValue | micropsi_core/world/worldadapter.py:288-291 | the write succeeds exactly for a known name whose first position lies in the array (in an aligned adapter: for every known name); that position becomes `value`, and nothing else changes |
| ArrayWorldAdapters.AddToDatatarget | micropsi_core/world/worldadapter.py:293-296 | an unknown name raises ValueError, unlike the dictionary adapter; otherwise the value at the name's first position grows by `value`, and nothing else changes |
| ArrayWorldAdapters.SetDatatargetFeedbackValue | micropsi_core/world/worldadapter.py:298-301 | the write succeeds exactly for a known name whose first position lies in the feedback array (in an aligned adapter: for every known name); that feedback becomes `value`, and nothing else changes |
| ArrayWorldAdapters.SetDatasourceValueThenGet | micropsi_core/world/worldadapter.py:241-286 | a written value reads back by name, and every other name reads what it read before |
| ArrayWorldAdapters.SetDatatargetValueThenGet | micropsi_core/world/worldadapter.py:246-291 | a written target value reads back by name; every other name keeps its value and its feedback |
| ArrayWorldAdapters.AddToDatatargetThenGet | micropsi_core/world/worldadapter.py:246-296 | after an addition the name reads its old value plus the addend; every other name reads what it read before |
| ArrayWorldAdapters.SetDatatargetFeedbackValueThenGet | micropsi_core/world/worldadapter.py:251-301 | written feedback reads back by name; every other name keeps its feedback, and the name's target value is untouched |
| ArrayWorldAdapters.AddToDatatargetAccumulates | micropsi_core/world/worldadapter.py:293-296 | two additions to one target apply in order: it reads `(v + x) + y` |
| ArrayWorldAdapters.GetDatasourceRange | micropsi_core/world/worldadapter.py:268-271 | an unknown start name raises ValueError; a range inside the array is the slice starting at the name's index |
| ArrayWorldAdapters.GetDatatargetRange | micropsi_core/world/worldadapter.py:273-276 | an unknown start name raises ValueError; a range inside the array is the slice starting at the name's index |
| ArrayWorldAdapters.GetDatatargetFeedbackRange | micropsi_core/world/worldadapter.py:278-281 | an unknown start name raises ValueError; a range inside the array is the slice starting at the name's index |
| ArrayWorldAdapters.SetDatasourceRange | micropsi_core/world/worldadapter.py:303-306 | the write succeeds exactly when the name is known and the values fit, or the slice starts past the end and the list has at most one element; it changes only positions index..index+len-1, and a fitting write sets all of them |
| ArrayWorldAdapters.SetDatatargetRange | micropsi_core/world/worldadapter.py:308-311 | the write succeeds exactly when the name is known and the values fit, or the slice starts past the end and the list has at most one element; it changes only positions index..index+len-1, and a fitting write sets all of them |
| ArrayWorldAdapters.SetDatatargetFeedbackRange | micropsi_core/world/worldadapter.py:313-316 | the write succeeds exactly when the name is known and the values fit, or the slice starts past the end and the list has at most one element; it changes only positions index..index+len-1, and a fitting write sets all of them |
| ArrayWorldAdapters.DatasourceRangeRoundTrip | micropsi_core/world/worldadapter.py:268-306 | a datasource range that fits is written and reads back unchanged from the same start name |
| ArrayWorldAdapters.DatatargetRangeRoundTrip | micropsi_core/world/worldadapter.py:273-311 | a datatarget range that fits is written and reads back unchanged from the same start name |
| ArrayWorldAdapters.DatatargetFeedbackRangeRoundTrip | micropsi_core/world/worldadapter.py:278-316 | a feedback range that fits is written and reads back unchanged from the same start name |
| ArrayWorldAdapters.DatasourceRangePastEndIsNoOp | micropsi_core/world/worldadapter.py:303-306 | an empty or one-element range written past the end of a short array succeeds and changes nothing |
| ArrayWorldAdapters.SetDatasourceValues | micropsi_core/world/worldadapter.py:318-321 | the whole-array write succeeds exactly for an equal-length array, else raises AssertionError; alignment is kept |
| ArrayWorldAdapters.SetDatatargetValues | micropsi_core/world/worldadapter.py:323-326 | the whole-array write succeeds exactly for an equal-length array, else raises AssertionError; alignment is kept |
| ArrayWorldAdapters.SetDatatargetFeedbackValues | micropsi_core/world/worldadapter.py:328-331 | the whole-array write succeeds exactly for an equal-length array, else raises AssertionError; alignment is kept |
| ArrayWorldAdapters.SetDatasourceValuesThenGet | micropsi_core/world/worldadapter.py:241-321 | after a whole-array write, each name reads the new value at its first position |
| UrlProofId.SkipLeft | micropsi_server/user.py:283 | the index reached from `i` is the first that does not hold whitespace, or the end; everything skipped is whitespace |
| UrlProofId.SkipRight | micropsi_server/user.py:283 | the end reached from `j` is preceded by a non-whitespace character, or equals the lower bound; everything dropped is whitespace |
| UrlProofId.Strip | micropsi_server/user.py:283 | the result is a contiguous part of the input; only whitespace was removed on either side, and none remains at either end |
| UrlProofId.StripTrimmed | micropsi_server/user.py:283 | a string with no whitespace at either end is unchanged by `strip` |
| UrlProofId.StripIdempotent | micropsi_server/user.py:283 | stripping a stripped id changes nothing |
| UrlProofId.Lower | micropsi_server/user.py:287 | byte-string `lower()` on one character maps each of A–Z to its own lower-case letter (code plus 32) and leaves every other character alone |
| UrlProofId.LowerString | micropsi_server/user.py:290 | `id.lower()` has the input's length and lowers it character by character |
| UrlProofId.UrlSafeCharIsMember | micropsi_server/user.py:287 | the range description `0-9`, `a-z`, `@._-` holds exactly the characters of the literal URL-safe string |
| UrlProofId.AllowedCharacters | micropsi_server/user.py:286-288 | a character passes exactly when its lower-case form is in `0-9a-z@._-`, i.e. when it is URL-safe or an upper-case letter |
| UrlProofId.FirstDisallowed | micropsi_server/user.py:286-288 | the scan reports the leftmost disallowed character, and reports none exactly when all are allowed |
| UrlProofId.CheckForUrlProofId | micropsi_server/user.py:279-296 | accepted exactly when all characters are allowed, the id is not a duplicate, and min ≤ length ≤ max; the accepted id is the stripped input and its lower-case form is URL-safe |
| UrlProofId.CheckReportsFirstFailure | micropsi_server/user.py:286-294 | a refusal names the first failing check in the order characters, duplicate, too short, too long: the leftmost bad character, a duplicate only for an allowed id, too short only for an allowed non-duplicate, too long only for one that is long enough |
| UrlProofId.AcceptedIsFixpoint | micropsi_server/user.py:279-296 | an accepted id, checked again with the same arguments, is accepted unchanged |
| UrlProofId.SafeIdChecked | micropsi_server/user.py:279-296 | a non-empty id of URL-safe characters, with no existing ids, is accepted as given within the bounds and otherwise refused as too short or too long |
| UrlProofId.MaxLengthIsInclusive | micropsi_server/user.py:293-296 | under the default bounds, a 21-character id is accepted and a 22-character one is refused as too long |
| UrlProofId.BlankIsTooShort | micropsi_server/user.py:283-292 | an all-whitespace id is refused as too short under the default bounds |
| Users.EmptyIsRegistered | micropsi_server/user.py:77-96 | a manager with no users and no sessions satisfies the registration invariant, and any token there is a Guest with Guest rights |
| Users.CreateUser | micropsi_server/user.py:119-140 | fails and changes nothing for an empty or taken id; otherwise adds exactly one record with the hashed password, the given role, `uid` defaulting to the id, no session and no expiry |
| Users.ListUsers | micropsi_server/user.py:148-153 | lists every user once with its role, active exactly when it holds a session token |
| Users.SetUserId | micropsi_server/user.py:155-166 | unknown old id gives `None`; a taken new id gives the old id and no change; otherwise the record moves to the new id, the new id is returned, and sessions are never touched |
| Users.SetUserRole | micropsi_server/user.py:168-174 | succeeds exactly for a known user and changes only that user's role |
| Users.SetUserPassword | micropsi_server/user.py:176-182 | succeeds exactly for a known user and changes only that user's password hash |
| Users.TestPassword | micropsi_server/user.py:214-219 | an unknown user never passes |
| Users.CreateThenTestPassword | micropsi_server/user.py:119-219 | after creation, the password passes the test; any other password passes only if it has the same hash |
| Users.SetPasswordThenTest | micropsi_server/user.py:176-219 | after a password change, the new password passes the test; any other passes only if it has the same hash |
| Users.Refresh | micropsi_server/user.py:237-239 | an expiring user's deadline becomes now plus 100 hours; a never-expiring user and all other fields are unchanged |
| Users.RefreshSession | micropsi_server/user.py:233-239 | an unknown token changes nothing; a token whose user is gone raises KeyError; otherwise the session's user is refreshed and every other user is unchanged |
| Users.OpenSession | micropsi_server/user.py:203-208 | a login maps the token to the user, gives the user the token and the chosen expiry, and changes nothing else |
| Users.StartSession | micropsi_server/user.py:194-212 | corrected login: returns the token exactly when the password test passes; on success the session maps token to user and the user holds the token; a session kept forever never expires, and any other expires the idle time after `now`; on failure nothing changes |
| Users.StartSessionAsWritten | micropsi_server/user.py:194-212 | the login as written: the same outcome and frame, but a session not kept forever only gets the user's refreshed expiry, which stays "never" for a user without a deadline |
| Users.EndSession | micropsi_server/user.py:221-227 | the token leaves the session table; its user's token is cleared if the user exists; other users are unchanged; an unknown token is a no-op |
| Users.DeleteUser | micropsi_server/user.py:184-192 | succeeds exactly for a known user; the user is removed and so is its active session; without a session, sessions are unchanged; the user the ended session named loses its token, and every other user is unchanged (with registered sessions, every remaining user is unchanged) |
| Users.PermissionsIn | micropsi_server/user.py:254-269 | a token whose session names an existing user with a role in the table gets exactly that role's row; every other token (no session, a removed user, an unlisted role) gets the Guest row |
| Users.GetPermissionsForSessionToken | micropsi_server/user.py:254-269 | over the corrected table: a live session of an existing user with a listed role gets that role's row, any other token the Guest row; every result contains "create restricted" |
| Users.GetPermissionsAsWritten | micropsi_server/user.py:57-269 | the same lookup over the table exactly as written: the listed role's row for a live session of an existing user, the Guest row otherwise |
| Users.SetUserRoleChangesPermissions | micropsi_server/user.py:30-34 | changing the role of a logged-in user changes the permissions of its live token to the new role's row (Guest rights for a role outside the table) |
| Users.GetUserIdForSessionToken | micropsi_server/user.py:271-277 | the session's user id, or "Guest" for an unknown token |
| Users.StartSessionGrantsRole | micropsi_server/user.py:194-269 | after a login, corrected or as written, the token names the user and carries the user's role row (Guest for a role not in the table), and the user is listed as active |
| Users.EndSessionRevokes | micropsi_server/user.py:221-277 | after a logout, the token names "Guest" with Guest rights, and its user is listed as inactive |
| Users.LoginLogoutRestoresSessions | micropsi_server/user.py:194-227 | logging in and then out again restores the session table and clears the user's token |
| Users.SecondLoginKeepsFirstToken | micropsi_server/user.py:202-205 | a second login leaves the first token live for the same user; the record holds only the second token |
| Users.DeleteUserRevokesSession | micropsi_server/user.py:184-192 | once a logged-in user is deleted, its token resolves to "Guest" with Guest rights |
| Users.DefaultRoleHasGuestRights | micropsi_server/user.py:53-269 | a user created with the default role "Agent Creator" logs in with Guest rights only, since that role is not in the table |
| Users.CreateUserKeepsSessionsRegistered | micropsi_server/user.py:119-140 | creating a user keeps every held token registered to its holder |
| Users.SetUserRoleKeepsSessionsRegistered | micropsi_server/user.py:168-174 | changing a role keeps every held token registered to its holder |
| Users.SetUserPasswordKeepsSessionsRegistered | micropsi_server/user.py:176-182 | changing a password keeps every held token registered to its holder |
| Users.LoggedInKeepsSessionsRegistered | micropsi_server/user.py:202-205 | any login under a fresh token, whatever expiry it records, keeps every held token registered to its holder |
| Users.StartSessionKeepsSessionsRegistered | micropsi_server/user.py:194-212 | a login with a fresh token, corrected or as written, keeps every held token registered to its holder |
| Users.EndSessionKeepsSessionsRegistered | micropsi_server/user.py:221-227 | a logout keeps every held token registered to its holder |
| Users.DeleteUserKeepsSessionsRegistered | micropsi_server/user.py:184-192 | deleting a user keeps every held token registered to its holder |
| Users.RenameStrandsSession | micropsi_server/user.py:155-166 | renaming a logged-in user leaves its token naming the old id; the token then carries only Guest rights, and the registration invariant fails |
| Users.NonForeverSessionNeverExpiresAsWritten | micropsi_server/user.py:194-239 | as written, when no user has a deadline, no login gives one, whether or not the session is kept forever |
| Users.NewUserSessionNeverExpiresAsWritten | micropsi_server/user.py:119-239 | as written, a new user who logs in without staying logged in forever gets no deadline |
| Users.NewUserSessionExpires | micropsi_server/user.py:194-239 | corrected, that login sets the deadline the idle time after `now`, and a later refresh moves it to the idle time after the refresh |
| Users.RolesAsWrittenNotNested | micropsi_server/user.py:57-63 | as written, "Full" holds the fused "manage servercreate full" and lacks "manage server" and "create full", so it is not contained in "Administrator" |
| Users.RolesNested | micropsi_server/user.py:57-63 | with the comma restored, Guest ⊆ Restricted ⊆ Full ⊆ Administrator, and "Full" has "manage server" and "create full" |
| Users.FullUserLacksCreateFull | micropsi_server/user.py:57-269 | a logged-in "Full" user lacks "create full" under the table as written, and has it under the corrected table |

## Findings

| source | as written | input that shows it | evidently intended | confidence | as-written member | corrected member |
|---|---|---|---|---|---|---|
| micropsi_server/user.py:60 | the "Full" row has no comma between "manage server" and "create full", so Python joins them into the single permission "manage servercreate full" | a session of any user whose role is "Full": its permissions lack "manage server" and "create full" | "Full" grants "manage server" and "create full", and every role's rights sit inside the next higher role's | high (the fused string names no permission; not executed) | Users.RolesAsWrittenNotNested | Users.RolesNested |
| micropsi_server/user.py:209-210 | a session not kept forever is only refreshed; `refresh_session` (line 237) sets a deadline only when the user already has one, and `create_user` (line 136) gives none | `create_user("a", "pw")`, then `start_session("a", "pw", keep_logged_in_forever=False)`: `session_expires` stays `False`, so the session never expires | a session not kept forever expires after the idle time, as the docstring at line 200 says | medium (nothing in the source ever sets a first deadline; not executed) | Users.NewUserSessionNeverExpiresAsWritten | Users.NewUserSessionExpires |

## Left out

- The module docstring (micropsi_server/user.py:6) says a user without a password set can log in with any password. The code does not implement this. `create_user` (line 133) and `set_user_password` (line 179) always store the md5 of the given password, empty or not, and `test_password` (lines 214-219) compares hashes only. The model follows the code: Users.CreateThenTestPassword shows that a user created with the empty password passes only with a password of the same hash. The docstring's promise is not modelled.
- File persistence is not modelled: the JSON load in the constructor, `save_users` and `__del__`. Only the in-memory maps are modelled.
- Rebuilding `sessions` from the loaded users at construction is left out. Its result depends on the file's contents and on dictionary order when two users share a token.
- The session-expiry daemon thread is left out. It is concurrency around `check_for_expired_user_sessions`.
- `check_for_expired_user_sessions` and `end_all_sessions` are left out. Both delete from `sessions` while iterating over it, which raises at runtime as soon as one session is removed. Neither works as a whole operation.
- `sessions` is a class attribute in the source, shared by all `UserManager` instances. The model gives each manager its own map.
- Users.StartSession: a non-empty token that is not yet in `sessions` is required. This stands in for a fresh random uuid, whose collisions are not modelled. The same holds for Users.StartSessionAsWritten.
- Error message texts of `check_for_url_proof_id` are not modelled. Each refusal carries its kind and its parameter (the character or the bound) instead.
- Python 2 byte-string semantics: `lower()` and `strip()` are modelled for byte strings only. Unicode-object inputs, whose case mapping and whitespace set are larger, are not modelled.
- `existing_ids` is modelled as a set. A list or dictionary behaves the same for the `in` test.
- The `WorldObject` base class, the configuration options, logging and the unused `datasource_lock` are not modelled.
- The array adapter's field accessors are not separate members: `get_available_datasources`, `get_available_datatargets`, `get_datasource_values`, `get_datatarget_values` and `get_datatarget_feedback_values` return the datatype's fields.
- The array adapter's `reset_datatargets` is a no-op, so its `update` is just the hook. There is nothing to model beyond the identity. The inherited dictionaries of the array adapter are not used by its own methods and are not modelled.
- numpy details are not modelled: dtype coercion, `float()` conversion, and aliasing of the returned arrays.
- ArrayWorldAdapters.SetDatasourceValues: the source stores the caller's object itself, without a copy. Two consequences are not modelled. Later in-place writes (`set_*_value`, `set_*_range`, `add_to_datatarget`) also change the caller's array. And a plain Python list, once stored, takes later range writes by list slice assignment, which resizes the list instead of raising ValueError. The model treats every stored value array as a numpy array of fixed length. The same holds for SetDatatargetValues and SetDatatargetFeedbackValues.
- Float rounding is not modelled. Values are exact reals, so sums do not round as Python floats and numpy float64s do.
- WorldAdapters.AddToDatatargetAccumulates: states the order of the two additions, `(v + a) + b`. It does not claim they equal one addition of `a + b`, which fails for floats (0.1 + 0.2 + 0.3 against 0.1 + 0.5).
- ArrayWorldAdapters.AddToDatatargetAccumulates: the same; only the order `(v + x) + y` is stated.
- ArrayWorldAdapters.AddDatasources: a numpy array passed as `initial_values` is not modelled. For more than one element, its truth test raises in numpy. The same holds for AddDatatargets.
- WorldAdapters.DefaultHook: requires the "echo" target, which a `Default` adapter always has. Without it the source raises KeyError.

=== FILE: array_world_adapter.dfy ===
/**
  The array-based world adapter: for each of datasources, datatargets and
  datatarget feedback, a list of names and a parallel array of values.
  Names keep insertion order and may repeat; a name is resolved with
  `list.index`, i.e. to its first occurrence, and an unknown name raises
  ValueError. Ranges are addressed by the name of their first element.
 */
module ArrayWorldAdapters {
  import opened Outcome

  datatype ArrayWorldAdapter = ArrayWorldAdapter(
    datasourceNames: seq<string>,
    datatargetNames: seq<string>,
    datasourceValues: seq<real>,
    datatargetValues: seq<real>,
    datatargetFeedbackValues: seq<real>)

  /** A freshly constructed adapter: no names, zero-length arrays. */
  const Fresh := ArrayWorldAdapter([], [], [], [], [])

  /** Every value array is as long as its list of names. */
  predicate Aligned(a: ArrayWorldAdapter) {
    && |a.datasourceValues| == |a.datasourceNames|
    && |a.datatargetValues| == |a.datatargetNames|
    && |a.datatargetFeedbackValues| == |a.datatargetNames|
  }

  /** A fresh adapter is aligned, knows no name, and its first added datasource sits at index 0. */
  lemma FreshIsAligned(name: string, value: real)
    ensures Aligned(Fresh)
    ensures GetDatasourceIndex(Fresh, name) == Err(ValueError)
    ensures GetDatatargetIndex(Fresh, name) == Err(ValueError)
    ensures AddDatasource(Fresh, name, value).0 == 0
    ensures GetDatasourceValue(AddDatasource(Fresh, name, value).1, name) == Ok(value)
  {
  }

  /** `names.index(name)`: the position of the first occurrence, or None. */
  function IndexOf(names: seq<string>, name: string): (r: Option<nat>)
    ensures r.None? <==> name !in names
    ensures r.Some? ==> r.value < |names| && names[r.value] == name
    ensures r.Some? ==> forall j :: 0 <= j < r.value ==> names[j] != name
  {
    if |names| == 0 then None
    else if names[0] == name then Some(0)
    else match IndexOf(names[1..], name)
      case None => None
      case Some(i) => Some(i + 1)
  }

  /** The index of a name that appears once is its one position. */
  lemma IndexOfUnique(names: seq<string>, k: nat)
    requires k < |names|
    requires forall j :: 0 <= j < |names| && j != k ==> names[j] != names[k]
    ensures IndexOf(names, names[k]) == Some(k)
  {
  }

  /** numpy's `values[start:stop]` for a non-negative start and any stop. */
  function Slice(values: seq<real>, start: nat, stop: int): (r: seq<real>)
    ensures 0 <= stop && start <= stop <= |values| ==> r == values[start..stop]
    ensures |r| <= |values|
  {
    var lo := if start <= |values| then start else |values|;
    var hi := if stop < 0 then (if stop + |values| < 0 then 0 else stop + |values|)
              else if stop <= |values| then stop else |values|;
    if hi <= lo then [] else values[lo..hi]
  }

  /** A slice that asks for more than is left is cut at the end of the array. */
  lemma SliceTruncates(values: seq<real>, start: nat, length: nat)
    requires start < |values| < start + length
    ensures Slice(values, start, start + length) == values[start..]
  {
  }

  /**
    A negative stop counts back from the end of the array: the slice ends
    `-stop` elements before the end, and is empty when that point lies at or
    before `start`.
   */
  lemma SliceNegativeStop(values: seq<real>, start: nat, stop: int)
    requires stop < 0
    ensures start <= |values| + stop ==> Slice(values, start, stop) == values[start..|values| + stop]
    ensures |values| + stop <= start ==> Slice(values, start, stop) == []
  {
  }

  /** `values[idx] = value`, or IndexError past the end. */
  function Store(values: seq<real>, idx: nat, value: real): (r: Result<seq<real>>)
    ensures r.Ok? <==> idx < |values|
    ensures r.Err? ==> r.error == IndexError
    ensures r.Ok? ==> |r.value| == |values| && r.value[idx] == value
    ensures r.Ok? ==> forall j :: 0 <= j < |values| && j != idx ==> r.value[j] == values[j]
  {
    if idx < |values| then Ok(values[idx := value]) else Err(IndexError)
  }

  /**
    `values[idx:idx + len(vs)] = vs`. numpy accepts the assignment when the
    slice has exactly `len(vs)` elements, or when `vs` has a single element
    that it broadcasts over the slice. A slice that starts at or past the
    end is empty, so an empty or one-element `vs` is accepted there and
    changes nothing. Any other slice cut short by the end of the array
    raises ValueError.
   */
  function StoreRange(values: seq<real>, idx: nat, vs: seq<real>): (r: Result<seq<real>>)
    ensures r.Ok? <==> idx + |vs| <= |values| || (|values| <= idx && |vs| <= 1)
    ensures r.Err? ==> r.error == ValueError
    ensures r.Ok? ==> |r.value| == |values|
    ensures r.Ok? && idx + |vs| <= |values| ==> forall j :: 0 <= j < |vs| ==> r.value[idx + j] == vs[j]
    ensures r.Ok? ==> forall j :: 0 <= j < |values| && !(idx <= j < idx + |vs|) ==> r.value[j] == values[j]
    ensures r.Ok? && |values| <= idx ==> r.value == values
  {
    if idx + |vs| <= |values| then Ok(values[..idx] + vs + values[idx + |vs|..])
    else if |values| <= idx && |vs| <= 1 then Ok(values)
    else Err(ValueError)
  }

  /** Reads the value stored under a name. */
  function Lookup(names: seq<string>, values: seq<real>, key: string): (r: Result<real>)
    ensures r.Ok? <==> key in names && IndexOf(names, key).value < |values|
    ensures key !in names ==> r == Err(ValueError)
    ensures r.Ok? ==> r.value == values[IndexOf(names, key).value]
  {
    match IndexOf(names, key)
    case None => Err(ValueError)
    case Some(i) => if i < |values| then Ok(values[i]) else Err(IndexError)
  }

  // Appending names.

  /** Appends one datasource and returns the index it landed at. */
  function AddDatasource(a: ArrayWorldAdapter, name: string, initialValue: real): (r: (nat, ArrayWorldAdapter))
    ensures r.0 == |a.datasourceNames|
    ensures r.1.datasourceNames == a.datasourceNames + [name]
    ensures r.1.datasourceValues == a.datasourceValues + [initialValue]
    ensures r.1.datatargetNames == a.datatargetNames && r.1.datatargetValues == a.datatargetValues
    ensures r.1.datatargetFeedbackValues == a.datatargetFeedbackValues
    ensures Aligned(a) ==> Aligned(r.1)
  {
    (|a.datasourceNames|, a.(datasourceNames := a.datasourceNames + [name],
                             datasourceValues := a.datasourceValues + [initialValue]))
  }

  /** Appends one datatarget; its value and its feedback both start at `initialValue`. */
  function AddDatatarget(a: ArrayWorldAdapter, name: string, initialValue: real): (r: (nat, ArrayWorldAdapter))
    ensures r.0 == |a.datatargetNames|
    ensures r.1.datatargetNames == a.datatargetNames + [name]
    ensures r.1.datatargetValues == a.datatargetValues + [initialValue]
    ensures r.1.datatargetFeedbackValues == a.datatargetFeedbackValues + [initialValue]
    ensures r.1.datasourceNames == a.datasourceNames && r.1.datasourceValues == a.datasourceValues
    ensures Aligned(a) ==> Aligned(r.1)
  {
    (|a.datatargetNames|, a.(datatargetNames := a.datatargetNames + [name],
                             datatargetValues := a.datatargetValues + [initialValue],
                             datatargetFeedbackValues := a.datatargetFeedbackValues + [initialValue]))
  }

  /**
    A new name reads back its initial value; a name already present keeps
    resolving to its earlier entry, so the appended value is unreachable by name.
   */
  lemma AddDatasourceThenGet(a: ArrayWorldAdapter, name: string, initialValue: real)
    requires Aligned(a)
    ensures name !in a.datasourceNames ==>
      GetDatasourceValue(AddDatasource(a, name, initialValue).1, name) == Ok(initialValue)
    ensures name in a.datasourceNames ==>
      GetDatasourceValue(AddDatasource(a, name, initialValue).1, name) == GetDatasourceValue(a, name)
  {
    var names' := AddDatasource(a, name, initialValue).1.datasourceNames;
    if name in a.datasourceNames {
      IndexOfPrefix(a.datasourceNames, [name], name);
    } else {
      IndexOfUnique(names', |a.datasourceNames|);
    }
  }

  lemma AddDatatargetThenGet(a: ArrayWorldAdapter, name: string, initialValue: real)
    requires Aligned(a)
    requires name !in a.datatargetNames
    ensures var a' := AddDatatarget(a, name, initialValue).1;
      GetDatatargetValue(a', name) == Ok(initialValue) && GetDatatargetFeedbackValue(a', name) == Ok(initialValue)
  {
    IndexOfUnique(AddDatatarget(a, name, initialValue).1.datatargetNames, |a.datatargetNames|);
  }

  /** Appending after a name does not move its first occurrence. */
  lemma {:induction false} IndexOfPrefix(names: seq<string>, more: seq<string>, name: string)
    requires name in names
    ensures IndexOf(names + more, name) == IndexOf(names, name)
  {
    if names[0] != name {
      assert (names + more)[1..] == names[1..] + more;
      IndexOfPrefix(names[1..], more, name);
    }
  }

  /** `range(lo, hi)`. */
  datatype IndexRange = IndexRange(lo: nat, hi: nat)

  /**
    The values appended for a batch of names: the caller's list when it is
    given, non-empty and as long as the names, otherwise zeros.
   */
  function BatchValues(count: nat, initialValues: Option<seq<real>>): (vs: seq<real>)
    ensures |vs| == count
    ensures initialValues.Some? && |initialValues.value| == count ==> vs == initialValues.value
    ensures initialValues.None? || |initialValues.value| != count ==> forall j :: 0 <= j < count ==> vs[j] == 0.0
  {
    if initialValues.None? || |initialValues.value| == 0 || |initialValues.value| != count then
      seq(count, _ => 0.0)
    else
      initialValues.value
  }

  /** Appends a batch of datasources and returns the range of indices they landed at. */
  function AddDatasources(a: ArrayWorldAdapter, names: seq<string>, initialValues: Option<seq<real>>)
    : (r: (IndexRange, ArrayWorldAdapter))
    ensures r.0 == IndexRange(|a.datasourceNames|, |a.datasourceNames| + |names|)
    ensures r.1.datasourceNames == a.datasourceNames + names
    ensures r.1.datasourceValues == a.datasourceValues + BatchValues(|names|, initialValues)
    ensures r.1.datatargetNames == a.datatargetNames && r.1.datatargetValues == a.datatargetValues
    ensures r.1.datatargetFeedbackValues == a.datatargetFeedbackValues
    ensures Aligned(a) ==> Aligned(r.1)
  {
    var offset := |a.datasourceNames|;
    (IndexRange(offset, offset + |names|),
     a.(datasourceNames := a.datasourceNames + names,
        datasourceValues := a.datasourceValues + BatchValues(|names|, initialValues)))
  }

  /** Appends a batch of datatargets; values and feedback both receive the batch values. */
  function AddDatatargets(a: ArrayWorldAdapter, names: seq<string>, initialValues: Option<seq<real>>)
    : (r: (IndexRange, ArrayWorldAdapter))
    ensures r.0 == IndexRange(|a.datatargetNames|, |a.datatargetNames| + |names|)
    ensures r.1.datatargetNames == a.datatargetNames + names
    ensures r.1.datatargetValues == a.datatargetValues + BatchValues(|names|, initialValues)
    ensures r.1.datatargetFeedbackValues == a.datatargetFeedbackValues + BatchValues(|names|, initialValues)
    ensures r.1.datasourceNames == a.datasourceNames && r.1.datasourceValues == a.datasourceValues
    ensures Aligned(a) ==> Aligned(r.1)
  {
    var offset := |a.datatargetNames|;
    var vs := BatchValues(|names|, initialValues);
    (IndexRange(offset, offset + |names|),
     a.(datatargetNames := a.datatargetNames + names,
        datatargetValues := a.datatargetValues + vs,
        datatargetFeedbackValues := a.datatargetFeedbackValues + vs))
  }

  /**
    Each index of the returned range holds the corresponding new name and
    its value, so the returned range addresses exactly the appended batch.
   */
  lemma AddDatasourcesRangeHoldsBatch(a: ArrayWorldAdapter, names: seq<string>, initialValues: Option<seq<real>>, i: nat)
    requires Aligned(a)
    requires AddDatasources(a, names, initialValues).0.lo <= i < AddDatasources(a, names, initialValues).0.hi
    ensures var (rng, a') := AddDatasources(a, names, initialValues);
      && a'.datasourceNames[i] == names[i - rng.lo]
      && a'.datasourceValues[i] == BatchValues(|names|, initialValues)[i - rng.lo]
  {
  }

  // Reading and writing by name.

  function GetDatasourceIndex(a: ArrayWorldAdapter, name: string): (r: Result<nat>)
    ensures r.Ok? <==> name in a.datasourceNames
    ensures r.Err? ==> r.error == ValueError
    ensures r.Ok? ==> r.value < |a.datasourceNames| && a.datasourceNames[r.value] == name
    ensures r.Ok? ==> forall j :: 0 <= j < r.value ==> a.datasourceNames[j] != name
  {
    match IndexOf(a.datasourceNames, name)
    case None => Err(ValueError)
    case Some(i) => Ok(i)
  }

  function GetDatatargetIndex(a: ArrayWorldAdapter, name: string): (r: Result<nat>)
    ensures r.Ok? <==> name in a.datatargetNames
    ensures r.Err? ==> r.error == ValueError
    ensures r.Ok? ==> r.value < |a.datatargetNames| && a.datatargetNames[r.value] == name
    ensures r.Ok? ==> forall j :: 0 <= j < r.value ==> a.datatargetNames[j] != name
  {
    match IndexOf(a.datatargetNames, name)
    case None => Err(ValueError)
    case Some(i) => Ok(i)
  }

  function GetDatasourceValue(a: ArrayWorldAdapter, key: string): (r: Result<real>)
    ensures Aligned(a) ==> (r.Ok? <==> key in a.datasourceNames)
  {
    Lookup(a.datasourceNames, a.datasourceValues, key)
  }

  function GetDatatargetValue(a: ArrayWorldAdapter, key: string): (r: Result<real>)
    ensures Aligned(a) ==> (r.Ok? <==> key in a.datatargetNames)
  {
    Lookup(a.datatargetNames, a.datatargetValues, key)
  }

  function GetDatatargetFeedbackValue(a: ArrayWorldAdapter, key: string): (r: Result<real>)
    ensures Aligned(a) ==> (r.Ok? <==> key in a.datatargetNames)
  {
    Lookup(a.datatargetNames, a.datatargetFeedbackValues, key)
  }

  function SetDatasourceValue(a: ArrayWorldAdapter, key: string, value: real): (r: Result<ArrayWorldAdapter>)
    ensures Aligned(a) ==> (r.Ok? <==> key in a.datasourceNames)
    ensures r.Ok? <==> key in a.datasourceNames && GetDatasourceIndex(a, key).value < |a.datasourceValues|
    ensures r.Ok? ==> r.value.datasourceNames == a.datasourceNames && |r.value.datasourceValues| == |a.datasourceValues|
    ensures r.Ok? ==> r.value.(datasourceValues := a.datasourceValues) == a
    ensures r.Ok? ==> r.value.datasourceValues == a.datasourceValues[GetDatasourceIndex(a, key).value := value]
  {
    match GetDatasourceIndex(a, key)
    case Err(e) => Err(e)
    case Ok(i) =>
      match Store(a.datasourceValues, i, value)
      case Err(e) => Err(e)
      case Ok(vs) => Ok(a.(datasourceValues := vs))
  }

  function SetDatatargetValue(a: ArrayWorldAdapter, key: string, value: real): (r: Result<ArrayWorldAdapter>)
    ensures Aligned(a) ==> (r.Ok? <==> key in a.datatargetNames)
    ensures r.Ok? <==> key in a.datatargetNames && GetDatatargetIndex(a, key).value < |a.datatargetValues|
    ensures r.Ok? ==> |r.value.datatargetValues| == |a.datatargetValues|
    ensures r.Ok? ==> r.value.(datatargetValues := a.datatargetValues) == a
    ensures r.Ok? ==> r.value.datatargetValues == a.datatargetValues[GetDatatargetIndex(a, key).value := value]
  {
    match GetDatatargetIndex(a, key)
    case Err(e) => Err(e)
    case Ok(i) =>
      match Store(a.datatargetValues, i, value)
      case Err(e) => Err(e)
      case Ok(vs) => Ok(a.(datatargetValues := vs))
  }

  /** Accumulates into a datatarget; unlike the dictionary adapter, an unknown name raises ValueError. */
  function AddToDatatarget(a: ArrayWorldAdapter, key: string, value: real): (r: Result<ArrayWorldAdapter>)
    ensures key !in a.datatargetNames ==> r == Err(ValueError)
    ensures Aligned(a) ==> (r.Ok? <==> key in a.datatargetNames)
    ensures r.Ok? <==> key in a.datatargetNames && GetDatatargetIndex(a, key).value < |a.datatargetValues|
    ensures r.Ok? ==> |r.value.datatargetValues| == |a.datatargetValues|
    ensures r.Ok? ==> r.value.(datatargetValues := a.datatargetValues) == a
    ensures r.Ok? ==> var i := GetDatatargetIndex(a, key).value;
      r.value.datatargetValues == a.datatargetValues[i := a.datatargetValues[i] + value]
  {
    match GetDatatargetIndex(a, key)
    case Err(e) => Err(e)
    case Ok(i) =>
      if i < |a.datatargetValues| then
        Ok(a.(datatargetValues := a.datatargetValues[i := a.datatargetValues[i] + value]))
      else
        Err(IndexError)
  }

  function SetDatatargetFeedbackValue(a: ArrayWorldAdapter, key: string, value: real): (r: Result<ArrayWorldAdapter>)
    ensures Aligned(a) ==> (r.Ok? <==> key in a.datatargetNames)
    ensures r.Ok? <==> key in a.datatargetNames && GetDatatargetIndex(a, key).value < |a.datatargetFeedbackValues|
    ensures r.Ok? ==> |r.value.datatargetFeedbackValues| == |a.datatargetFeedbackValues|
    ensures r.Ok? ==> r.value.(datatargetFeedbackValues := a.datatargetFeedbackValues) == a
    ensures r.Ok? ==>
      (r.value.datatargetFeedbackValues == a.datatargetFeedbackValues[GetDatatargetIndex(a, key).value := value])
  {
    match GetDatatargetIndex(a, key)
    case Err(e) => Err(e)
    case Ok(i) =>
      match Store(a.datatargetFeedbackValues, i, value)
      case Err(e) => Err(e)
      case Ok(vs) => Ok(a.(datatargetFeedbackValues := vs))
  }

  /** A single write is read back by name; every other name whose first occurrence is elsewhere keeps its value. */
  lemma SetDatasourceValueThenGet(a: ArrayWorldAdapter, key: string, value: real, other: string)
    requires Aligned(a) && key in a.datasourceNames
    requires other != key
    ensures var a' := SetDatasourceValue(a, key, value).value;
      GetDatasourceValue(a', key) == Ok(value) && GetDatasourceValue(a', other) == GetDatasourceValue(a, other)
  {
  }

  /** A target write is read back by name; every other name keeps its value and its feedback. */
  lemma SetDatatargetValueThenGet(a: ArrayWorldAdapter, key: string, value: real, other: string)
    requires Aligned(a) && key in a.datatargetNames
    requires other != key
    ensures var a' := SetDatatargetValue(a, key, value).value;
      && GetDatatargetValue(a', key) == Ok(value)
      && GetDatatargetValue(a', other) == GetDatatargetValue(a, other)
      && GetDatatargetFeedbackValue(a', other) == GetDatatargetFeedbackValue(a, other)
  {
  }

  /** An accumulation reads back as the old value plus the addend; every other name keeps its value. */
  lemma AddToDatatargetThenGet(a: ArrayWorldAdapter, key: string, value: real, other: string)
    requires Aligned(a) && key in a.datatargetNames
    requires other != key
    ensures var a' := AddToDatatarget(a, key, value).value;
      && GetDatatargetValue(a', key) == Ok(GetDatatargetValue(a, key).value + value)
      && GetDatatargetValue(a', other) == GetDatatargetValue(a, other)
  {
  }

  /** A feedback write is read back by name; every other name keeps its feedback, and no target moves. */
  lemma SetDatatargetFeedbackValueThenGet(a: ArrayWorldAdapter, key: string, value: real, other: string)
    requires Aligned(a) && key in a.datatargetNames
    requires other != key
    ensures var a' := SetDatatargetFeedbackValue(a, key, value).value;
      && GetDatatargetFeedbackValue(a', key) == Ok(value)
      && GetDatatargetFeedbackValue(a', other) == GetDatatargetFeedbackValue(a, other)
      && GetDatatargetValue(a', key) == GetDatatargetValue(a, key)
  {
  }

  /**
    Two accumulations into one target add the addends one after the other:
    the target reads `(v + x) + y`, where `v` is its value before.
   */
  lemma AddToDatatargetAccumulates(a: ArrayWorldAdapter, key: string, x: real, y: real)
    requires Aligned(a) && key in a.datatargetNames
    ensures AddToDatatarget(a, key, x).Ok?
    ensures var a2 := AddToDatatarget(AddToDatatarget(a, key, x).value, key, y);
      a2.Ok? && GetDatatargetValue(a2.value, key) == Ok((GetDatatargetValue(a, key).value + x) + y)
  {
  }

  // Ranges addressed by the name of their first element.

  function GetDatasourceRange(a: ArrayWorldAdapter, startKey: string, length: int): (r: Result<seq<real>>)
    ensures r.Ok? <==> startKey in a.datasourceNames
    ensures r.Err? ==> r.error == ValueError
    ensures r.Ok? && 0 <= length ==>
      var i := GetDatasourceIndex(a, startKey).value;
      i + length <= |a.datasourceValues| ==> r.value == a.datasourceValues[i..i + length]
  {
    match GetDatasourceIndex(a, startKey)
    case Err(e) => Err(e)
    case Ok(i) => Ok(Slice(a.datasourceValues, i, i + length))
  }

  function GetDatatargetRange(a: ArrayWorldAdapter, startKey: string, length: int): (r: Result<seq<real>>)
    ensures r.Ok? <==> startKey in a.datatargetNames
    ensures r.Err? ==> r.error == ValueError
    ensures r.Ok? && 0 <= length ==>
      var i := GetDatatargetIndex(a, startKey).value;
      i + length <= |a.datatargetValues| ==> r.value == a.datatargetValues[i..i + length]
  {
    match GetDatatargetIndex(a, startKey)
    case Err(e) => Err(e)
    case Ok(i) => Ok(Slice(a.datatargetValues, i, i + length))
  }

  function GetDatatargetFeedbackRange(a: ArrayWorldAdapter, startKey: string, length: int): (r: Result<seq<real>>)
    ensures r.Ok? <==> startKey in a.datatargetNames
    ensures r.Err? ==> r.error == ValueError
    ensures r.Ok? && 0 <= length ==>
      var i := GetDatatargetIndex(a, startKey).value;
      i + length <= |a.datatargetFeedbackValues| ==> r.value == a.datatargetFeedbackValues[i..i + length]
  {
    match GetDatatargetIndex(a, startKey)
    case Err(e) => Err(e)
    case Ok(i) => Ok(Slice(a.datatargetFeedbackValues, i, i + length))
  }

  function SetDatasourceRange(a: ArrayWorldAdapter, startKey: string, vs: seq<real>): (r: Result<ArrayWorldAdapter>)
    ensures r.Ok? <==> startKey in a.datasourceNames
                       && var i := GetDatasourceIndex(a, startKey).value;
                          i + |vs| <= |a.datasourceValues| || (|a.datasourceValues| <= i && |vs| <= 1)
    ensures r.Ok? ==> r.value.(datasourceValues := a.datasourceValues) == a
    ensures r.Ok? ==> var i := GetDatasourceIndex(a, startKey).value;
      && |r.value.datasourceValues| == |a.datasourceValues|
      && (i + |vs| <= |a.datasourceValues| ==> forall j :: 0 <= j < |vs| ==> r.value.datasourceValues[i + j] == vs[j])
      && (forall j :: 0 <= j < |a.datasourceValues| && !(i <= j < i + |vs|) ==>
            r.value.datasourceValues[j] == a.datasourceValues[j])
  {
    match GetDatasourceIndex(a, startKey)
    case Err(e) => Err(e)
    case Ok(i) =>
      assert i == GetDatasourceIndex(a, startKey).value;
      match StoreRange(a.datasourceValues, i, vs)
      case Err(e) => Err(e)
      case Ok(values) => Ok(a.(datasourceValues := values))
  }

  function SetDatatargetRange(a: ArrayWorldAdapter, startKey: string, vs: seq<real>): (r: Result<ArrayWorldAdapter>)
    ensures r.Ok? <==> startKey in a.datatargetNames
                       && var i := GetDatatargetIndex(a, startKey).value;
                          i + |vs| <= |a.datatargetValues| || (|a.datatargetValues| <= i && |vs| <= 1)
    ensures r.Ok? ==> r.value.(datatargetValues := a.datatargetValues) == a
    ensures r.Ok? ==> var i := GetDatatargetIndex(a, startKey).value;
      && |r.value.datatargetValues| == |a.datatargetValues|
      && (i + |vs| <= |a.datatargetValues| ==> forall j :: 0 <= j < |vs| ==> r.value.datatargetValues[i + j] == vs[j])
      && (forall j :: 0 <= j < |a.datatargetValues| && !(i <= j < i + |vs|) ==>
            r.value.datatargetValues[j] == a.datatargetValues[j])
  {
    match GetDatatargetIndex(a, startKey)
    case Err(e) => Err(e)
    case Ok(i) =>
      assert i == GetDatatargetIndex(a, startKey).value;
      match StoreRange(a.datatargetValues, i, vs)
      case Err(e) => Err(e)
      case Ok(values) => Ok(a.(datatargetValues := values))
  }

  function SetDatatargetFeedbackRange(a: ArrayWorldAdapter, startKey: string, vs: seq<real>): (r: Result<ArrayWorldAdapter>)
    ensures r.Ok? <==> startKey in a.datatargetNames
                       && var i := GetDatatargetIndex(a, startKey).value;
                          i + |vs| <= |a.datatargetFeedbackValues| || (|a.datatargetFeedbackValues| <= i && |vs| <= 1)
    ensures r.Ok? ==> r.value.(datatargetFeedbackValues := a.datatargetFeedbackValues) == a
    ensures r.Ok? ==> var i := GetDatatargetIndex(a, startKey).value;
      && |r.value.datatargetFeedbackValues| == |a.datatargetFeedbackValues|
      && (i + |vs| <= |a.datatargetFeedbackValues| ==> forall j :: 0 <= j < |vs| ==> r.value.datatargetFeedbackValues[i + j] == vs[j])
      && (forall j :: 0 <= j < |a.datatargetFeedbackValues| && !(i <= j < i + |vs|) ==>
            r.value.datatargetFeedbackValues[j] == a.datatargetFeedbackValues[j])
  {
    match GetDatatargetIndex(a, startKey)
    case Err(e) => Err(e)
    case Ok(i) =>
      assert i == GetDatatargetIndex(a, startKey).value;
      match StoreRange(a.datatargetFeedbackValues, i, vs)
      case Err(e) => Err(e)
      case Ok(values) => Ok(a.(datatargetFeedbackValues := values))
  }

  /** A range that fits is written and read back unchanged from the same start name. */
  lemma DatasourceRangeRoundTrip(a: ArrayWorldAdapter, startKey: string, vs: seq<real>)
    requires startKey in a.datasourceNames && GetDatasourceIndex(a, startKey).value + |vs| <= |a.datasourceValues|
    ensures SetDatasourceRange(a, startKey, vs).Ok?
    ensures GetDatasourceRange(SetDatasourceRange(a, startKey, vs).value, startKey, |vs|) == Ok(vs)
  {
    var a' := SetDatasourceRange(a, startKey, vs).value;
    var i := GetDatasourceIndex(a, startKey).value;
    assert a'.datasourceValues[i..i + |vs|] == vs;
  }

  lemma DatatargetRangeRoundTrip(a: ArrayWorldAdapter, startKey: string, vs: seq<real>)
    requires startKey in a.datatargetNames && GetDatatargetIndex(a, startKey).value + |vs| <= |a.datatargetValues|
    ensures SetDatatargetRange(a, startKey, vs).Ok?
    ensures GetDatatargetRange(SetDatatargetRange(a, startKey, vs).value, startKey, |vs|) == Ok(vs)
  {
    var a' := SetDatatargetRange(a, startKey, vs).value;
    var i := GetDatatargetIndex(a, startKey).value;
    assert a'.datatargetValues[i..i + |vs|] == vs;
  }

  lemma DatatargetFeedbackRangeRoundTrip(a: ArrayWorldAdapter, startKey: string, vs: seq<real>)
    requires startKey in a.datatargetNames && GetDatatargetIndex(a, startKey).value + |vs| <= |a.datatargetFeedbackValues|
    ensures SetDatatargetFeedbackRange(a, startKey, vs).Ok?
    ensures GetDatatargetFeedbackRange(SetDatatargetFeedbackRange(a, startKey, vs).value, startKey, |vs|) == Ok(vs)
  {
    var a' := SetDatatargetFeedbackRange(a, startKey, vs).value;
    var i := GetDatatargetIndex(a, startKey).value;
    assert a'.datatargetFeedbackValues[i..i + |vs|] == vs;
  }

  /**
    Past the end of a short array the slice is empty: writing an empty or
    one-element range there succeeds and changes nothing.
   */
  lemma DatasourceRangePastEndIsNoOp(a: ArrayWorldAdapter, startKey: string, vs: seq<real>)
    requires startKey in a.datasourceNames && |a.datasourceValues| <= GetDatasourceIndex(a, startKey).value
    requires |vs| <= 1
    ensures SetDatasourceRange(a, startKey, vs) == Ok(a)
  {
  }

  // Whole-array setters.

  function SetDatasourceValues(a: ArrayWorldAdapter, vs: seq<real>): (r: Result<ArrayWorldAdapter>)
    ensures r.Ok? <==> |vs| == |a.datasourceValues|
    ensures r.Err? ==> r.error == AssertionError
    ensures r.Ok? ==> r.value.datasourceValues == vs && r.value.(datasourceValues := a.datasourceValues) == a
    ensures r.Ok? && Aligned(a) ==> Aligned(r.value)
  {
    if |vs| == |a.datasourceValues| then Ok(a.(datasourceValues := vs)) else Err(AssertionError)
  }

  function SetDatatargetValues(a: ArrayWorldAdapter, vs: seq<real>): (r: Result<ArrayWorldAdapter>)
    ensures r.Ok? <==> |vs| == |a.datatargetValues|
    ensures r.Err? ==> r.error == AssertionError
    ensures r.Ok? ==> r.value.datatargetValues == vs && r.value.(datatargetValues := a.datatargetValues) == a
    ensures r.Ok? && Aligned(a) ==> Aligned(r.value)
  {
    if |vs| == |a.datatargetValues| then Ok(a.(datatargetValues := vs)) else Err(AssertionError)
  }

  function SetDatatargetFeedbackValues(a: ArrayWorldAdapter, vs: seq<real>): (r: Result<ArrayWorldAdapter>)
    ensures r.Ok? <==> |vs| == |a.datatargetFeedbackValues|
    ensures r.Err? ==> r.error == AssertionError
    ensures r.Ok? ==> r.value.datatargetFeedbackValues == vs
                      && r.value.(datatargetFeedbackValues := a.datatargetFeedbackValues) == a
    ensures r.Ok? && Aligned(a) ==> Aligned(r.value)
  {
    if |vs| == |a.datatargetFeedbackValues| then Ok(a.(datatargetFeedbackValues := vs)) else Err(AssertionError)
  }

  /** After a whole-array write, each name reads back its position in the new array (first occurrences). */
  lemma SetDatasourceValuesThenGet(a: ArrayWorldAdapter, vs: seq<real>, k: nat)
    requires Aligned(a) && |vs| == |a.datasourceValues|
    requires k < |a.datasourceNames|
    requires forall j :: 0 <= j < k ==> a.datasourceNames[j] != a.datasourceNames[k]
    ensures GetDatasourceValue(SetDatasourceValues(a, vs).value, a.datasourceNames[k]) == Ok(vs[k])
  {
    assert IndexOf(a.datasourceNames, a.datasourceNames[k]).value == k;
  }
}

=== FILE: outcome.dfy ===
/**
  Failure-carrying values shared by the world-adapter and user-manager models.
  Python signals a missing key, an unknown list element, an index past the end
  and a failed `assert` with exceptions; the model returns them as values.
 */
module Outcome {

  /** Python's `None`-or-value. */
  datatype Option<+T> = None | Some(value: T)

  /** The Python exceptions the modelled code can raise. */
  datatype PyError =
    | KeyError        // dict[key] on a missing key
    | ValueError      // list.index on a missing element, numpy shape mismatch
    | IndexError      // list or array subscript past the end
    | AssertionError  // a failed `assert`

  /** The outcome of a call that either returns a value or raises. */
  datatype Result<+T> = Ok(value: T) | Err(error: PyError)
}

=== FILE: string_order.dfy ===
/**
  Python's ordering of `str` values (lexicographic by character code), and
  `sorted` applied to the key set of a dictionary.
 */
module StringOrder {

  /** `a <= b` in Python's string order. */
  predicate Le(a: string, b: string)
    decreases |a|
  {
    |a| == 0 || (|b| > 0 && (a[0] < b[0] || (a[0] == b[0] && Le(a[1..], b[1..]))))
  }

  /** `a < b` in Python's string order. */
  predicate Lt(a: string, b: string) {
    Le(a, b) && a != b
  }

  /** Strictly ascending: what `sorted` yields for distinct keys. */
  predicate StrictlySorted(s: seq<string>) {
    forall i, j :: 0 <= i < j < |s| ==> Lt(s[i], s[j])
  }

  lemma {:induction false} LeReflexive(a: string)
    ensures Le(a, a)
    decreases |a|
  {
    if |a| > 0 {
      LeReflexive(a[1..]);
    }
  }

  lemma {:induction false} LeAntisymmetric(a: string, b: string)
    requires Le(a, b) && Le(b, a)
    ensures a == b
    decreases |a|
  {
    if |a| > 0 {
      assert a[0] == b[0];
      LeAntisymmetric(a[1..], b[1..]);
      assert a == [a[0]] + a[1..];
      assert b == [b[0]] + b[1..];
    }
  }

  lemma {:induction false} LeTransitive(a: string, b: string, c: string)
    requires Le(a, b) && Le(b, c)
    ensures Le(a, c)
    decreases |a|
  {
    if |a| > 0 && a[0] == b[0] && b[0] == c[0] {
      LeTransitive(a[1..], b[1..], c[1..]);
    }
  }

  lemma {:induction false} LeTotal(a: string, b: string)
    ensures Le(a, b) || Le(b, a)
    decreases |a|
  {
    if |a| > 0 && |b| > 0 && a[0] == b[0] {
      LeTotal(a[1..], b[1..]);
    }
  }

  /** `x` is the smallest element of `s`. */
  predicate IsLeast(x: string, s: set<string>) {
    x in s && forall y | y in s :: Le(x, y)
  }

  lemma {:induction false} LeastExists(s: set<string>)
    requires s != {}
    ensures exists x :: IsLeast(x, s)
    decreases |s|
  {
    var y :| y in s;
    if s == {y} {
      LeReflexive(y);
      assert IsLeast(y, s);
    } else {
      LeastExists(s - {y});
      var m :| IsLeast(m, s - {y});
      LeTotal(y, m);
      if Le(y, m) {
        forall z | z in s
          ensures Le(y, z)
        {
          if z == y {
            LeReflexive(y);
          } else {
            LeTransitive(y, m, z);
          }
        }
        assert IsLeast(y, s);
      } else {
        assert IsLeast(m, s);
      }
    }
  }

  lemma LeastUnique(s: set<string>)
    ensures forall x, x' :: IsLeast(x, s) && IsLeast(x', s) ==> x == x'
  {
    forall x, x' | IsLeast(x, s) && IsLeast(x', s)
      ensures x == x'
    {
      LeAntisymmetric(x, x');
    }
  }

  /** `sorted(keys)`: the elements of `s`, each once, in ascending order. */
  function SortedSet(s: set<string>): (r: seq<string>)
    ensures |r| == |s|
    ensures forall x :: x in r <==> x in s
    ensures StrictlySorted(r)
    decreases |s|
  {
    if s == {} then []
    else
      LeastExists(s);
      LeastUnique(s);
      var x :| IsLeast(x, s);
      var rest := SortedSet(s - {x});
      assert forall j :: 0 <= j < |rest| ==> Lt(x, rest[j]) by {
        forall j | 0 <= j < |rest|
          ensures Lt(x, rest[j])
        {
          assert rest[j] in rest;
          assert rest[j] in s - {x};
        }
      }
      [x] + rest
  }
}

=== FILE: url_proof_id.dfy ===
/**
  The validator for ids that are used directly in URLs (user names, world
  and agent names). The id is stripped of surrounding whitespace and then
  checked in a fixed order: every character must be URL-safe, the id must
  not already exist, and its length must lie within the given bounds.

  The source is Python 2 code working on byte strings, so `strip` removes
  the six ASCII whitespace characters and `lower` folds only A-Z.
 */
module UrlProofId {
  import opened Outcome

  /** The characters an id may contain, after lower-casing. */
  const UrlSafe: string := Digits + Letters + "@._-"
  const Digits: string := "0123456789"
  const Letters: string := "abcdefghijklm" + "nopqrstuvwxyz"

  const DefaultMinIdLength: int := 1
  const DefaultMaxIdLength: int := 21

  /** The ways an id is refused, in the order they are checked. */
  datatype IdError =
    | DisallowedCharacter(c: char)
    | AlreadyExists
    | TooShort(minIdLength: int)
    | TooLong(maxIdLength: int)

  /** `(True, id)` or `(False, reason)`. */
  datatype IdCheck = Accepted(id: string) | Rejected(reason: IdError)

  /** Byte-string whitespace: space, tab, newline, carriage return, vertical tab, form feed. */
  predicate IsSpace(c: char) {
    c == ' ' || c == '\t' || c == '\n' || c == '\r' || c == '\U{000B}' || c == '\U{000C}'
  }

  /** Byte-string `lower` on one character. */
  function Lower(c: char): (l: char)
    ensures 'A' <= c <= 'Z' ==> 'a' <= l <= 'z' && l as int == c as int + 32
    ensures !('A' <= c <= 'Z') ==> l == c
  {
    if 'A' <= c <= 'Z' then (c as int - 'A' as int + 'a' as int) as char else c
  }

  function LowerString(s: string): (r: string)
    ensures |r| == |s|
    ensures forall i :: 0 <= i < |s| ==> r[i] == Lower(s[i])
  {
    if |s| == 0 then [] else [Lower(s[0])] + LowerString(s[1..])
  }

  /** A character of `UrlSafe`, described by ranges. */
  predicate UrlSafeChar(c: char) {
    '0' <= c <= '9' || 'a' <= c <= 'z' || c == '@' || c == '.' || c == '_' || c == '-'
  }

  /** A literal of `n` consecutive characters from `lo` holds exactly that range. */
  lemma RangeMember(lit: string, lo: char, n: nat, c: char)
    requires |lit| == n && lo as int + n <= 0xD800
    requires forall i :: 0 <= i < n ==> lit[i] as int == lo as int + i
    ensures lo <= c && c as int < lo as int + n <==> c in lit
  {
    if lo <= c && c as int < lo as int + n {
      assert lit[c as int - lo as int] == c;
    }
  }

  lemma UrlSafeCharIsMember(c: char)
    ensures UrlSafeChar(c) <==> c in UrlSafe
  {
    RangeMember(Digits, '0', 10, c);
    RangeMember("abcdefghijklm", 'a', 13, c);
    RangeMember("nopqrstuvwxyz", 'n', 13, c);
  }

  /** `c.lower() in UrlSafe`. */
  predicate Allowed(c: char) {
    UrlSafeChar(Lower(c))
  }

  /** The allowed characters are the URL-safe ones and the upper-case letters. */
  lemma AllowedCharacters(c: char)
    ensures Allowed(c) <==> Lower(c) in UrlSafe
    ensures Allowed(c) <==> UrlSafeChar(c) || 'A' <= c <= 'Z'
  {
    UrlSafeCharIsMember(Lower(c));
  }

  /** The first index at or after `i` that does not hold whitespace (or `|s|`). */
  function SkipLeft(s: string, i: nat): (r: nat)
    requires i <= |s|
    ensures i <= r <= |s|
    ensures forall k :: i <= k < r ==> IsSpace(s[k])
    ensures r == |s| || !IsSpace(s[r])
    decreases |s| - i
  {
    if i < |s| && IsSpace(s[i]) then SkipLeft(s, i + 1) else i
  }

  /** The end of `s[lo..j]` once trailing whitespace is dropped. */
  function SkipRight(s: string, lo: nat, j: nat): (r: nat)
    requires lo <= j <= |s|
    ensures lo <= r <= j
    ensures forall k :: r <= k < j ==> IsSpace(s[k])
    ensures r == lo || !IsSpace(s[r - 1])
  {
    if j > lo && IsSpace(s[j - 1]) then SkipRight(s, lo, j - 1) else j
  }

  /** `s.strip()`: `s` without whitespace at either end. */
  function Strip(s: string): (r: string)
    ensures r == [] || (!IsSpace(r[0]) && !IsSpace(r[|r| - 1]))
    ensures exists i, j :: (&& 0 <= i <= j <= |s| && r == s[i..j]
                            && (forall k :: 0 <= k < i ==> IsSpace(s[k]))
                            && (forall k :: j <= k < |s| ==> IsSpace(s[k])))
  {
    var i := SkipLeft(s, 0);
    var j := SkipRight(s, i, |s|);
    s[i..j]
  }

  /** A string with no whitespace at either end is its own strip. */
  lemma StripTrimmed(s: string)
    requires s == [] || (!IsSpace(s[0]) && !IsSpace(s[|s| - 1]))
    ensures Strip(s) == s
  {
    assert SkipLeft(s, 0) == 0;
    assert SkipRight(s, 0, |s|) == |s|;
    assert s[0..|s|] == s;
  }

  /** Stripping twice is stripping once. */
  lemma StripIdempotent(s: string)
    ensures Strip(Strip(s)) == Strip(s)
  {
    StripTrimmed(Strip(s));
  }

  /** The first character that is not URL-safe, scanning from the left. */
  function FirstDisallowed(s: string): (r: Option<char>)
    ensures r.None? <==> forall k :: 0 <= k < |s| ==> Allowed(s[k])
    ensures r.Some? ==> exists k :: (&& 0 <= k < |s| && s[k] == r.value && !Allowed(s[k])
                                     && forall m :: 0 <= m < k ==> Allowed(s[m]))
  {
    if |s| == 0 then None
    else if !Allowed(s[0]) then Some(s[0])
    else
      var r := FirstDisallowed(s[1..]);
      if r.Some? then
        var k :| 0 <= k < |s[1..]| && s[1..][k] == r.value && !Allowed(s[1..][k])
          && forall m :: 0 <= m < k ==> Allowed(s[1..][m]);
        assert s[k + 1] == r.value && forall m :: 0 <= m < k + 1 ==> Allowed(s[m]);
        r
      else
        r
  }

  /** The existing-ids test: a non-empty collection that holds the lower-cased id. */
  predicate IsDuplicate(id: string, existingIds: set<string>) {
    |existingIds| > 0 && LowerString(id) in existingIds
  }

  /** Every character of `s` passes the character test. */
  predicate AllAllowed(s: string) {
    forall k :: 0 <= k < |s| ==> Allowed(s[k])
  }

  /**
    Strips `id` and checks it, reporting the first failing condition: a
    disallowed character, then a duplicate, then too short, then too long.
   */
  function CheckForUrlProofId(id: string, existingIds: set<string>, minIdLength: int, maxIdLength: int)
    : (r: IdCheck)
    ensures r.Accepted? <==>
      AllAllowed(Strip(id)) && !IsDuplicate(Strip(id), existingIds) && minIdLength <= |Strip(id)| <= maxIdLength
    ensures r.Accepted? ==> r.id == Strip(id)
    ensures r.Accepted? ==> forall k :: 0 <= k < |r.id| ==> UrlSafeChar(Lower(r.id[k]))
  {
    var s := Strip(id);
    match FirstDisallowed(s)
    case Some(c) => Rejected(DisallowedCharacter(c))
    case None =>
      if IsDuplicate(s, existingIds) then Rejected(AlreadyExists)
      else if |s| < minIdLength then Rejected(TooShort(minIdLength))
      else if |s| > maxIdLength then Rejected(TooLong(maxIdLength))
      else Accepted(s)
  }

  /**
    The refusal names the first failing check: the leftmost disallowed
    character; a duplicate only among allowed ids; too short only among
    allowed non-duplicates; too long only among those long enough.
   */
  lemma CheckReportsFirstFailure(id: string, existingIds: set<string>, minIdLength: int, maxIdLength: int)
    ensures var r := CheckForUrlProofId(id, existingIds, minIdLength, maxIdLength);
      var s := Strip(id);
      && (r.Rejected? && r.reason.DisallowedCharacter? ==>
            exists k :: (&& 0 <= k < |s| && s[k] == r.reason.c && !Allowed(s[k])
                         && forall m :: 0 <= m < k ==> Allowed(s[m])))
      && (r.Rejected? && !r.reason.DisallowedCharacter? ==> AllAllowed(s))
      && (r == Rejected(AlreadyExists) <==> AllAllowed(s) && IsDuplicate(s, existingIds))
      && (r.Rejected? && r.reason.TooShort? ==>
            r.reason == TooShort(minIdLength) && !IsDuplicate(s, existingIds) && |s| < minIdLength)
      && (r.Rejected? && r.reason.TooLong? ==>
            && r.reason == TooLong(maxIdLength) && !IsDuplicate(s, existingIds)
            && minIdLength <= |s| && |s| > maxIdLength)
  {
  }

  /** An accepted id passes the check again unchanged: the returned id is already normal. */
  lemma AcceptedIsFixpoint(id: string, existingIds: set<string>, minIdLength: int, maxIdLength: int)
    requires CheckForUrlProofId(id, existingIds, minIdLength, maxIdLength).Accepted?
    ensures var s := CheckForUrlProofId(id, existingIds, minIdLength, maxIdLength).id;
      CheckForUrlProofId(s, existingIds, minIdLength, maxIdLength) == Accepted(s)
  {
    StripIdempotent(id);
  }

  /** A URL-safe character passes the test and is not whitespace. */
  lemma SafeIsAllowed(c: char)
    requires UrlSafeChar(c)
    ensures Allowed(c) && !IsSpace(c)
  {
  }

  /** An id of URL-safe characters, with no existing ids, is refused only for its length. */
  lemma SafeIdChecked(s: string, minIdLength: int, maxIdLength: int)
    requires |s| > 0
    requires forall k :: 0 <= k < |s| ==> UrlSafeChar(s[k])
    ensures CheckForUrlProofId(s, {}, minIdLength, maxIdLength)
      == if |s| < minIdLength then Rejected(TooShort(minIdLength))
         else if |s| > maxIdLength then Rejected(TooLong(maxIdLength))
         else Accepted(s)
  {
    SafeIsAllowed(s[0]);
    SafeIsAllowed(s[|s| - 1]);
    StripTrimmed(s);
    forall k | 0 <= k < |s|
      ensures Allowed(s[k])
    {
      SafeIsAllowed(s[k]);
    }
  }

  /** The default bounds accept an id of exactly 21 characters and refuse one of 22. */
  lemma MaxLengthIsInclusive(s: string, c: char)
    requires |s| == DefaultMaxIdLength
    requires forall k :: 0 <= k < |s| ==> UrlSafeChar(s[k])
    requires UrlSafeChar(c)
    ensures CheckForUrlProofId(s, {}, DefaultMinIdLength, DefaultMaxIdLength) == Accepted(s)
    ensures CheckForUrlProofId(s + [c], {}, DefaultMinIdLength, DefaultMaxIdLength) == Rejected(TooLong(21))
  {
    SafeIdChecked(s, DefaultMinIdLength, DefaultMaxIdLength);
    var t := s + [c];
    assert forall k :: 0 <= k < |t| ==> UrlSafeChar(t[k]) by {
      forall k | 0 <= k < |t|
        ensures UrlSafeChar(t[k])
      {
        if k < |s| { assert t[k] == s[k]; }
      }
    }
    SafeIdChecked(t, DefaultMinIdLength, DefaultMaxIdLength);
  }

  /** A blank id is refused as too short under the default bounds. */
  lemma BlankIsTooShort(id: string)
    requires forall k :: 0 <= k < |id| ==> IsSpace(id[k])
    ensures CheckForUrlProofId(id, {}, DefaultMinIdLength, DefaultMaxIdLength) == Rejected(TooShort(1))
  {
    assert SkipRight(id, SkipLeft(id, 0), |id|) == SkipLeft(id, 0);
  }
}

=== FILE: user_manager.dfy ===
/**
  User and session management for the MicroPsi service.

  The manager keeps two dictionaries: `users`, from user id to the user's
  record, and `sessions`, from session token to user id. Every operation is
  a function from the manager's state to its result and the new state.
  Password hashing (md5) is a parameter of type `Digest`; a fresh session
  token (a random uuid) is a parameter that must not already be in use; the
  current time is a parameter of the operations that read the clock.
 */
module Users {
  import opened Outcome

  /** The role a user is created with when the caller names none. */
  const DefaultRole := "Agent Creator"

  /** Idle seconds before an expiring session lapses (100 hours). */
  const IdleTimeBeforeSessionExpires := 360000

  /** The role and user id reported for a token that belongs to no session. */
  const Guest := "Guest"

  /**
    The permission table exactly as the source writes it. A missing comma
    between "manage server" and "create full" in the "Full" row makes the
    two literals one string, "manage servercreate full".
   */
  const UserRolesAsWritten: map<string, set<string>> := map[
    "Administrator" := {"manage users", "manage worlds", "manage agents", "manage server",
                        "create admin", "create restricted", "create full"},
    "Full" := {"manage worlds", "manage agents", "manage server" + "create full", "create restricted"},
    "Restricted" := {"manage agents", "create restricted"},
    Guest := {"create restricted"}
  ]

  /** The permission table with the "Full" row as evidently intended. */
  const UserRoles: map<string, set<string>> := map[
    "Administrator" := {"manage users", "manage worlds", "manage agents", "manage server",
                        "create admin", "create restricted", "create full"},
    "Full" := {"manage worlds", "manage agents", "manage server", "create full", "create restricted"},
    "Restricted" := {"manage agents", "create restricted"},
    Guest := {"create restricted"}
  ]

  /** `hashlib.md5(password).hexdigest()`, left uninterpreted. */
  type Digest = string -> string

  /** `session_expires`: `False`, or the moment (in seconds) an idle session lapses. */
  datatype Expiry = NeverExpires | ExpiresAt(deadline: int)

  datatype User = User(
    uid: string,
    hashedPassword: string,
    role: string,
    sessionToken: Option<string>,
    sessionExpires: Expiry)

  datatype UserManager = UserManager(users: map<string, User>, sessions: map<string, string>)

  /** A manager with no users and no sessions. */
  const Empty := UserManager(map[], map[])

  /** An empty manager trivially keeps every held token registered, and grants only Guest rights. */
  lemma EmptyIsRegistered(token: string)
    ensures SessionsRegistered(Empty)
    ensures GetUserIdForSessionToken(Empty, token) == Guest
    ensures GetPermissionsForSessionToken(Empty, token) == UserRoles[Guest]
  {
  }

  /** The user's `session_token` is truthy: present and non-empty. */
  predicate HasSession(u: User) {
    u.sessionToken.Some? && u.sessionToken.value != ""
  }

  /** Every user who holds a session token is found under that token in `sessions`. */
  ghost predicate SessionsRegistered(um: UserManager) {
    forall id :: id in um.users && HasSession(um.users[id]) ==>
      um.users[id].sessionToken.value in um.sessions && um.sessions[um.users[id].sessionToken.value] == id
  }

  // Creating and listing users.

  /**
    Adds a user unless the id is empty or taken. `uid` defaults to the
    user id when it is missing or empty; the new user has no session.
   */
  function CreateUser(um: UserManager, md5: Digest, userId: string, password: string, role: string, uid: Option<string>)
    : (r: (bool, UserManager))
    ensures r.0 <==> userId != "" && userId !in um.users
    ensures !r.0 ==> r.1 == um
    ensures r.1.sessions == um.sessions
    ensures r.0 ==> r.1.users.Keys == um.users.Keys + {userId}
    ensures forall id :: id in um.users ==> id in r.1.users && r.1.users[id] == um.users[id]
    ensures r.0 ==> var u := r.1.users[userId];
      && u.role == role && u.hashedPassword == md5(password)
      && !HasSession(u) && u.sessionExpires == NeverExpires
      && (uid.None? || uid.value == "" ==> u.uid == userId)
      && (uid.Some? && uid.value != "" ==> u.uid == uid.value)
  {
    if userId != "" && userId !in um.users then
      var u := User(if uid.Some? && uid.value != "" then uid.value else userId,
                    md5(password), role, None, NeverExpires);
      (true, um.(users := um.users[userId := u]))
    else
      (false, um)
  }

  /** What `list_users` reports for one user. */
  datatype UserListing = UserListing(role: string, isActive: bool)

  function ListUsers(um: UserManager): (r: map<string, UserListing>)
    ensures r.Keys == um.users.Keys
    ensures forall id :: id in r ==> r[id].role == um.users[id].role
    ensures forall id :: id in r ==> (r[id].isActive <==> HasSession(um.users[id]))
  {
    map id | id in um.users :: UserListing(um.users[id].role, HasSession(um.users[id]))
  }

  // Changing a user.

  /**
    Renames a user: `None` if the old id is unknown, the old id (and no
    change) if the new id is taken, otherwise the new id. Sessions are not
    touched, so a token of the renamed user still names the old id.
   */
  function SetUserId(um: UserManager, oldId: string, newId: string): (r: (Option<string>, UserManager))
    ensures oldId !in um.users ==> r == (None, um)
    ensures oldId in um.users && newId in um.users ==> r == (Some(oldId), um)
    ensures oldId in um.users && newId !in um.users ==>
      && r.0 == Some(newId)
      && r.1.users.Keys == um.users.Keys - {oldId} + {newId}
      && r.1.users[newId] == um.users[oldId]
      && (forall id :: id in um.users && id != oldId ==> r.1.users[id] == um.users[id])
    ensures r.1.sessions == um.sessions
  {
    if oldId in um.users then
      if newId !in um.users then
        (Some(newId), um.(users := (um.users - {oldId})[newId := um.users[oldId]]))
      else
        (Some(oldId), um)
    else
      (None, um)
  }

  function SetUserRole(um: UserManager, userId: string, role: string): (r: (bool, UserManager))
    ensures r.0 <==> userId in um.users
    ensures !r.0 ==> r.1 == um
    ensures r.1.sessions == um.sessions && r.1.users.Keys == um.users.Keys
    ensures r.0 ==> r.1.users[userId] == um.users[userId].(role := role)
    ensures forall id :: id in um.users && id != userId ==> r.1.users[id] == um.users[id]
  {
    if userId in um.users then
      (true, um.(users := um.users[userId := um.users[userId].(role := role)]))
    else
      (false, um)
  }

  function SetUserPassword(um: UserManager, md5: Digest, userId: string, password: string): (r: (bool, UserManager))
    ensures r.0 <==> userId in um.users
    ensures !r.0 ==> r.1 == um
    ensures r.1.sessions == um.sessions && r.1.users.Keys == um.users.Keys
    ensures r.0 ==> r.1.users[userId] == um.users[userId].(hashedPassword := md5(password))
    ensures forall id :: id in um.users && id != userId ==> r.1.users[id] == um.users[id]
  {
    if userId in um.users then
      (true, um.(users := um.users[userId := um.users[userId].(hashedPassword := md5(password))]))
    else
      (false, um)
  }

  /** The user is known and the password hashes to the stored hash. */
  function TestPassword(um: UserManager, md5: Digest, userId: string, password: string): (ok: bool)
    ensures userId !in um.users ==> !ok
  {
    userId in um.users && um.users[userId].hashedPassword == md5(password)
  }

  /** A password set at creation or by `SetUserPassword` passes the test; another passes only on a hash collision. */
  lemma CreateThenTestPassword(um: UserManager, md5: Digest, userId: string, password: string, role: string,
                               uid: Option<string>, other: string)
    requires CreateUser(um, md5, userId, password, role, uid).0
    ensures TestPassword(CreateUser(um, md5, userId, password, role, uid).1, md5, userId, password)
    ensures TestPassword(CreateUser(um, md5, userId, password, role, uid).1, md5, userId, other)
      <==> md5(other) == md5(password)
  {
  }

  lemma SetPasswordThenTest(um: UserManager, md5: Digest, userId: string, password: string, other: string)
    requires userId in um.users
    ensures TestPassword(SetUserPassword(um, md5, userId, password).1, md5, userId, password)
    ensures TestPassword(SetUserPassword(um, md5, userId, password).1, md5, userId, other)
      <==> md5(other) == md5(password)
  {
  }

  // Sessions.

  /** An expiring user's deadline moves to `now` plus the idle time; a never-expiring user is unchanged. */
  function Refresh(u: User, now: int): (u': User)
    ensures u'.(sessionExpires := u.sessionExpires) == u
    ensures u.sessionExpires.NeverExpires? ==> u'.sessionExpires == NeverExpires
    ensures u.sessionExpires.ExpiresAt? ==> u'.sessionExpires == ExpiresAt(now + IdleTimeBeforeSessionExpires)
  {
    if u.sessionExpires.ExpiresAt? then u.(sessionExpires := ExpiresAt(now + IdleTimeBeforeSessionExpires)) else u
  }

  /**
    Pushes back the expiry of the session's user. An unknown token changes
    nothing; a token whose user was removed raises KeyError.
   */
  function RefreshSession(um: UserManager, token: string, now: int): (r: Result<UserManager>)
    ensures token !in um.sessions ==> r == Ok(um)
    ensures token in um.sessions ==> (r.Ok? <==> um.sessions[token] in um.users)
    ensures r.Err? ==> r.error == KeyError
    ensures r.Ok? ==> r.value.sessions == um.sessions && r.value.users.Keys == um.users.Keys
    ensures r.Ok? ==> forall id :: id in um.users ==>
      r.value.users[id] == if token in um.sessions && id == um.sessions[token] then Refresh(um.users[id], now)
                           else um.users[id]
  {
    if token in um.sessions then
      var id := um.sessions[token];
      if id in um.users then Ok(um.(users := um.users[id := Refresh(um.users[id], now)]))
      else Err(KeyError)
    else
      Ok(um)
  }

  /**
    `um'` is `um` after `userId` logged in under `token`: the session maps
    the token to the user, the user holds the token, and apart from the
    user's expiry nothing else differs.
   */
  ghost predicate LoggedIn(um: UserManager, um': UserManager, userId: string, token: string) {
    && userId in um.users
    && um'.sessions == um.sessions[token := userId]
    && um'.users.Keys == um.users.Keys
    && um'.users[userId].sessionToken == Some(token)
    && um'.users[userId].(sessionToken := um.users[userId].sessionToken,
                          sessionExpires := um.users[userId].sessionExpires) == um.users[userId]
    && (forall id :: id in um.users && id != userId ==> um'.users[id] == um.users[id])
  }

  /** Records the login of a known user under `token`, with the given expiry. */
  function OpenSession(um: UserManager, userId: string, token: string, expires: Expiry): (r: UserManager)
    requires userId in um.users
    ensures LoggedIn(um, r, userId, token)
    ensures r.users[userId].sessionExpires == expires
  {
    var u := um.users[userId].(sessionToken := Some(token), sessionExpires := expires);
    UserManager(um.users[userId := u], um.sessions[token := userId])
  }

  /**
    Logs a user in when the password checks out, under the fresh `token`.
    A session kept forever never expires; any other session lapses after
    the idle time, counted from `now`. On failure nothing changes.
   */
  function StartSession(um: UserManager, md5: Digest, userId: string, password: string,
                        keepLoggedInForever: bool, now: int, token: string): (r: (Option<string>, UserManager))
    requires token != "" && token !in um.sessions
    ensures r.0.Some? <==> TestPassword(um, md5, userId, password)
    ensures r.0.None? ==> r.1 == um
    ensures r.0.Some? ==> r.0.value == token && LoggedIn(um, r.1, userId, token)
    ensures r.0.Some? && keepLoggedInForever ==> r.1.users[userId].sessionExpires == NeverExpires
    ensures r.0.Some? && !keepLoggedInForever ==>
      r.1.users[userId].sessionExpires == ExpiresAt(now + IdleTimeBeforeSessionExpires)
  {
    if TestPassword(um, md5, userId, password) then
      var expires := if keepLoggedInForever then NeverExpires else ExpiresAt(now + IdleTimeBeforeSessionExpires);
      (Some(token), OpenSession(um, userId, token, expires))
    else
      (None, um)
  }

  /**
    The login as the source writes it: a session not kept forever is only
    refreshed, and a refresh moves a deadline the user already has. A user
    with no deadline, which every new user is, keeps none.
   */
  function StartSessionAsWritten(um: UserManager, md5: Digest, userId: string, password: string,
                                 keepLoggedInForever: bool, now: int, token: string)
    : (r: (Option<string>, UserManager))
    requires token != "" && token !in um.sessions
    ensures r.0.Some? <==> TestPassword(um, md5, userId, password)
    ensures r.0.None? ==> r.1 == um
    ensures r.0.Some? ==> r.0.value == token && LoggedIn(um, r.1, userId, token)
    ensures r.0.Some? && keepLoggedInForever ==> r.1.users[userId].sessionExpires == NeverExpires
    ensures r.0.Some? && !keepLoggedInForever ==>
      r.1.users[userId].sessionExpires == Refresh(um.users[userId], now).sessionExpires
  {
    if TestPassword(um, md5, userId, password) then
      var expires := if keepLoggedInForever then NeverExpires else Refresh(um.users[userId], now).sessionExpires;
      (Some(token), OpenSession(um, userId, token, expires))
    else
      (None, um)
  }

  /** Removes a known token and clears its user's token if the user still exists; an unknown token is a no-op. */
  function EndSession(um: UserManager, token: string): (r: UserManager)
    ensures token !in um.sessions ==> r == um
    ensures r.sessions == um.sessions - {token}
    ensures r.users.Keys == um.users.Keys
    ensures token in um.sessions && um.sessions[token] in um.users ==>
      r.users[um.sessions[token]] == um.users[um.sessions[token]].(sessionToken := None)
    ensures forall id :: id in um.users && (token !in um.sessions || id != um.sessions[token]) ==>
      r.users[id] == um.users[id]
  {
    if token in um.sessions then
      var id := um.sessions[token];
      var sessions := um.sessions - {token};
      if id in um.users then UserManager(um.users[id := um.users[id].(sessionToken := None)], sessions)
      else UserManager(um.users, sessions)
    else
      um
  }

  /** Removes a user, first ending the session the user holds. */
  function DeleteUser(um: UserManager, userId: string): (r: (bool, UserManager))
    ensures r.0 <==> userId in um.users
    ensures !r.0 ==> r.1 == um
    ensures r.0 ==> r.1.users.Keys == um.users.Keys - {userId}
    ensures r.1.sessions.Keys <= um.sessions.Keys
    ensures r.0 && HasSession(um.users[userId]) ==>
      r.1.sessions == um.sessions - {um.users[userId].sessionToken.value}
    ensures r.0 && !HasSession(um.users[userId]) ==> r.1.sessions == um.sessions
    ensures r.0 ==> forall id :: id in r.1.users ==>
      r.1.users[id] == if HasSession(um.users[userId]) && um.users[userId].sessionToken.value in um.sessions
                          && um.sessions[um.users[userId].sessionToken.value] == id
                       then um.users[id].(sessionToken := None) else um.users[id]
    ensures r.0 && SessionsRegistered(um) ==> forall id :: id in r.1.users ==> r.1.users[id] == um.users[id]
  {
    if userId in um.users then
      var u := um.users[userId];
      var um' := if HasSession(u) then EndSession(um, u.sessionToken.value) else um;
      (true, um'.(users := um'.users - {userId}))
    else
      (false, um)
  }

  // Looking up a session.

  /** The token names a session whose user exists and whose role is a row of `table`. */
  predicate ListedSession(table: map<string, set<string>>, um: UserManager, token: string) {
    token in um.sessions && um.sessions[token] in um.users && um.users[um.sessions[token]].role in table
  }

  /** The permissions of the session's user under `table`, or the Guest row. */
  function PermissionsIn(table: map<string, set<string>>, um: UserManager, token: string): (perms: set<string>)
    requires Guest in table
    ensures perms in table.Values
    ensures token !in um.sessions ==> perms == table[Guest]
    ensures ListedSession(table, um, token) ==> perms == table[um.users[um.sessions[token]].role]
    ensures !ListedSession(table, um, token) ==> perms == table[Guest]
  {
    if token in um.sessions && um.sessions[token] in um.users && um.users[um.sessions[token]].role in table then
      table[um.users[um.sessions[token]].role]
    else
      table[Guest]
  }

  /**
    The permissions of the session's user: its role's row when the token
    names a live session whose user exists and whose role is in the table,
    the Guest row otherwise.
   */
  function GetPermissionsForSessionToken(um: UserManager, token: string): (perms: set<string>)
    ensures perms in UserRoles.Values
    ensures "create restricted" in perms
    ensures token !in um.sessions ==> perms == UserRoles[Guest]
    ensures ListedSession(UserRoles, um, token) ==> perms == UserRoles[um.users[um.sessions[token]].role]
    ensures !ListedSession(UserRoles, um, token) ==> perms == UserRoles[Guest]
  {
    PermissionsIn(UserRoles, um, token)
  }

  /** The permissions the source actually hands out, read from the table as written. */
  function GetPermissionsAsWritten(um: UserManager, token: string): (perms: set<string>)
    ensures perms in UserRolesAsWritten.Values
    ensures token !in um.sessions ==> perms == UserRolesAsWritten[Guest]
    ensures ListedSession(UserRolesAsWritten, um, token) ==>
      perms == UserRolesAsWritten[um.users[um.sessions[token]].role]
    ensures !ListedSession(UserRolesAsWritten, um, token) ==> perms == UserRolesAsWritten[Guest]
  {
    PermissionsIn(UserRolesAsWritten, um, token)
  }

  function GetUserIdForSessionToken(um: UserManager, token: string): (id: string)
    ensures token in um.sessions ==> id == um.sessions[token]
    ensures token !in um.sessions ==> id == Guest
  {
    if token in um.sessions then um.sessions[token] else Guest
  }

  // Properties across operations.

  /**
    A successful login makes the token name the user, with the user's role
    (or Guest rights for a role outside the table), and lists the user as active.
   */
  lemma StartSessionGrantsRole(um: UserManager, md5: Digest, userId: string, password: string,
                               keep: bool, now: int, token: string)
    requires token != "" && token !in um.sessions
    requires TestPassword(um, md5, userId, password)
    ensures var um' := StartSession(um, md5, userId, password, keep, now, token).1;
      && GetUserIdForSessionToken(um', token) == userId
      && GetPermissionsForSessionToken(um', token)
         == (if um.users[userId].role in UserRoles then UserRoles[um.users[userId].role] else UserRoles[Guest])
      && ListUsers(um')[userId].isActive
    ensures var um' := StartSessionAsWritten(um, md5, userId, password, keep, now, token).1;
      && GetUserIdForSessionToken(um', token) == userId
      && GetPermissionsForSessionToken(um', token)
         == (if um.users[userId].role in UserRoles then UserRoles[um.users[userId].role] else UserRoles[Guest])
      && ListUsers(um')[userId].isActive
  {
  }

  /**
    A role change takes effect on a live session at once: the token now
    carries the new role's row, or Guest rights for a role outside the table.
   */
  lemma SetUserRoleChangesPermissions(um: UserManager, token: string, role: string)
    requires token in um.sessions && um.sessions[token] in um.users
    ensures var um' := SetUserRole(um, um.sessions[token], role).1;
      GetPermissionsForSessionToken(um', token) == if role in UserRoles then UserRoles[role] else UserRoles[Guest]
  {
  }

  /** A logged-out token is worth exactly a Guest's rights, and the user is listed as inactive. */
  lemma EndSessionRevokes(um: UserManager, token: string)
    ensures GetUserIdForSessionToken(EndSession(um, token), token) == Guest
    ensures GetPermissionsForSessionToken(EndSession(um, token), token) == UserRoles[Guest]
    ensures token in um.sessions && um.sessions[token] in um.users ==>
      !ListUsers(EndSession(um, token))[um.sessions[token]].isActive
  {
  }

  /** Logging in and out again leaves the session table as it was. */
  lemma LoginLogoutRestoresSessions(um: UserManager, md5: Digest, userId: string, password: string,
                                    keep: bool, now: int, token: string)
    requires token != "" && token !in um.sessions
    requires TestPassword(um, md5, userId, password)
    ensures var um' := EndSession(StartSession(um, md5, userId, password, keep, now, token).1, token);
      um'.sessions == um.sessions && um'.users[userId].sessionToken == None
  {
    var um1 := StartSession(um, md5, userId, password, keep, now, token).1;
    assert um1.sessions - {token} == um.sessions;
  }

  /**
    A second login does not end the first: the earlier token still maps to
    the user, although the user's record now holds only the new token.
   */
  lemma SecondLoginKeepsFirstToken(um: UserManager, md5: Digest, userId: string, password: string,
                                   now: int, first: string, second: string)
    requires first != "" && second != "" && first != second
    requires first !in um.sessions && second !in um.sessions
    requires TestPassword(um, md5, userId, password)
    ensures var um1 := StartSession(um, md5, userId, password, true, now, first).1;
      var um2 := StartSession(um1, md5, userId, password, true, now, second).1;
      && GetUserIdForSessionToken(um2, first) == userId
      && GetUserIdForSessionToken(um2, second) == userId
      && um2.users[userId].sessionToken == Some(second)
  {
  }

  /** Deleting a logged-in user leaves its token with Guest rights only. */
  lemma DeleteUserRevokesSession(um: UserManager, userId: string)
    requires SessionsRegistered(um)
    requires userId in um.users && HasSession(um.users[userId])
    ensures var token := um.users[userId].sessionToken.value;
      var um' := DeleteUser(um, userId).1;
      userId !in um'.users && GetUserIdForSessionToken(um', token) == Guest
      && GetPermissionsForSessionToken(um', token) == UserRoles[Guest]
  {
  }

  /** A user created with the default role gets no more than a Guest: "Agent Creator" is not in the table. */
  lemma DefaultRoleHasGuestRights(um: UserManager, md5: Digest, userId: string, password: string, now: int, token: string)
    requires userId != "" && userId !in um.users
    requires token != "" && token !in um.sessions
    ensures var um1 := CreateUser(um, md5, userId, password, DefaultRole, None).1;
      var um2 := StartSession(um1, md5, userId, password, true, now, token).1;
      GetUserIdForSessionToken(um2, token) == userId
      && GetPermissionsForSessionToken(um2, token) == UserRoles[Guest]
  {
    var um1 := CreateUser(um, md5, userId, password, DefaultRole, None).1;
    StartSessionGrantsRole(um1, md5, userId, password, true, now, token);
  }

  // The session-registration invariant.

  lemma CreateUserKeepsSessionsRegistered(um: UserManager, md5: Digest, userId: string, password: string,
                                          role: string, uid: Option<string>)
    requires SessionsRegistered(um)
    ensures SessionsRegistered(CreateUser(um, md5, userId, password, role, uid).1)
  {
  }

  lemma SetUserRoleKeepsSessionsRegistered(um: UserManager, userId: string, role: string)
    requires SessionsRegistered(um)
    ensures SessionsRegistered(SetUserRole(um, userId, role).1)
  {
  }

  lemma SetUserPasswordKeepsSessionsRegistered(um: UserManager, md5: Digest, userId: string, password: string)
    requires SessionsRegistered(um)
    ensures SessionsRegistered(SetUserPassword(um, md5, userId, password).1)
  {
  }

  /** Any login under a fresh token, whatever expiry it sets, keeps every held token registered. */
  lemma LoggedInKeepsSessionsRegistered(um: UserManager, um': UserManager, userId: string, token: string)
    requires SessionsRegistered(um)
    requires token !in um.sessions
    requires LoggedIn(um, um', userId, token)
    ensures SessionsRegistered(um')
  {
    forall id | id in um'.users && HasSession(um'.users[id])
      ensures um'.users[id].sessionToken.value in um'.sessions
      ensures um'.sessions[um'.users[id].sessionToken.value] == id
    {
      if id != userId {
        assert um.users[id].sessionToken.value != token;
      }
    }
  }

  lemma StartSessionKeepsSessionsRegistered(um: UserManager, md5: Digest, userId: string, password: string,
                                            keep: bool, now: int, token: string)
    requires SessionsRegistered(um)
    requires token != "" && token !in um.sessions
    ensures SessionsRegistered(StartSession(um, md5, userId, password, keep, now, token).1)
    ensures SessionsRegistered(StartSessionAsWritten(um, md5, userId, password, keep, now, token).1)
  {
    if TestPassword(um, md5, userId, password) {
      LoggedInKeepsSessionsRegistered(um, StartSession(um, md5, userId, password, keep, now, token).1, userId, token);
      LoggedInKeepsSessionsRegistered(um, StartSessionAsWritten(um, md5, userId, password, keep, now, token).1,
                                      userId, token);
    }
  }

  lemma EndSessionKeepsSessionsRegistered(um: UserManager, token: string)
    requires SessionsRegistered(um)
    ensures SessionsRegistered(EndSession(um, token))
  {
    var um' := EndSession(um, token);
    forall id | id in um'.users && HasSession(um'.users[id])
      ensures um'.users[id].sessionToken.value in um'.sessions
      ensures um'.sessions[um'.users[id].sessionToken.value] == id
    {
      if token in um.sessions && id != um.sessions[token] {
        assert um.users[id].sessionToken.value != token;
      }
    }
  }

  lemma DeleteUserKeepsSessionsRegistered(um: UserManager, userId: string)
    requires SessionsRegistered(um)
    ensures SessionsRegistered(DeleteUser(um, userId).1)
  {
    if userId in um.users && HasSession(um.users[userId]) {
      EndSessionKeepsSessionsRegistered(um, um.users[userId].sessionToken.value);
    }
  }

  /**
    Renaming a logged-in user breaks the invariant: the session still names
    the old id, so the token now resolves to no user and carries only
    Guest rights.
   */
  lemma RenameStrandsSession(um: UserManager, oldId: string, newId: string)
    requires SessionsRegistered(um)
    requires oldId in um.users && HasSession(um.users[oldId]) && newId !in um.users
    ensures var token := um.users[oldId].sessionToken.value;
      var um' := SetUserId(um, oldId, newId).1;
      && GetUserIdForSessionToken(um', token) == oldId
      && GetPermissionsForSessionToken(um', token) == UserRoles[Guest]
      && !SessionsRegistered(um')
  {
    var um' := SetUserId(um, oldId, newId).1;
    assert newId in um'.users && HasSession(um'.users[newId]);
  }

  // Sessions that are not kept forever.

  /**
    As written, no login ever sets a deadline: when no user has one, none
    has one after any login, so a session started without
    `keep_logged_in_forever` never expires.
   */
  lemma NonForeverSessionNeverExpiresAsWritten(um: UserManager, md5: Digest, userId: string, password: string,
                                                keep: bool, now: int, token: string)
    requires token != "" && token !in um.sessions
    requires forall id :: id in um.users ==> um.users[id].sessionExpires == NeverExpires
    ensures var um' := StartSessionAsWritten(um, md5, userId, password, keep, now, token).1;
      forall id :: id in um'.users ==> um'.users[id].sessionExpires == NeverExpires
  {
  }

  /** Concretely: a newly created user who logs in without staying logged in forever gets no deadline. */
  lemma NewUserSessionNeverExpiresAsWritten(um: UserManager, md5: Digest, userId: string, password: string,
                                            role: string, now: int, token: string)
    requires userId != "" && userId !in um.users
    requires token != "" && token !in um.sessions
    ensures var um1 := CreateUser(um, md5, userId, password, role, None).1;
      var r := StartSessionAsWritten(um1, md5, userId, password, false, now, token);
      r.0 == Some(token) && r.1.users[userId].sessionExpires == NeverExpires
  {
  }

  /**
    Corrected: the same login sets the deadline to the idle time after
    `now`, and each later refresh of the session pushes it to the idle time
    after the refresh.
   */
  lemma NewUserSessionExpires(um: UserManager, md5: Digest, userId: string, password: string,
                              role: string, now: int, later: int, token: string)
    requires userId != "" && userId !in um.users
    requires token != "" && token !in um.sessions
    ensures var um1 := CreateUser(um, md5, userId, password, role, None).1;
      var r := StartSession(um1, md5, userId, password, false, now, token);
      && r.0 == Some(token)
      && r.1.users[userId].sessionExpires == ExpiresAt(now + IdleTimeBeforeSessionExpires)
      && RefreshSession(r.1, token, later).Ok?
      && RefreshSession(r.1, token, later).value.users[userId].sessionExpires
         == ExpiresAt(later + IdleTimeBeforeSessionExpires)
  {
  }

  // The "Full" row of the permission table.

  /**
    As written, the roles are not nested: "Full" holds the fused
    "manage servercreate full", which no Administrator holds, and lacks
    "create full" and "manage server".
   */
  lemma RolesAsWrittenNotNested()
    ensures !(UserRolesAsWritten["Full"] <= UserRolesAsWritten["Administrator"])
    ensures "manage servercreate full" in UserRolesAsWritten["Full"]
    ensures "create full" !in UserRolesAsWritten["Full"] && "manage server" !in UserRolesAsWritten["Full"]
  {
    assert "manage server" + "create full" == "manage servercreate full";
    assert "manage servercreate full" != "manage users";
    assert "manage servercreate full" != "create full";
    assert "manage servercreate full" != "manage server";
  }

  /** With the comma restored, each role's rights contain the next lower role's: Guest, Restricted, Full, Administrator. */
  lemma RolesNested()
    ensures UserRoles[Guest] <= UserRoles["Restricted"] <= UserRoles["Full"] <= UserRoles["Administrator"]
    ensures "create full" in UserRoles["Full"] && "manage server" in UserRoles["Full"]
  {
  }

  /** Concretely: a logged-in "Full" user may not create full agents under the table as written. */
  lemma FullUserLacksCreateFull(um: UserManager, token: string)
    requires token in um.sessions && um.sessions[token] in um.users
    requires um.users[um.sessions[token]].role == "Full"
    ensures "create full" !in GetPermissionsAsWritten(um, token)
    ensures "create full" in GetPermissionsForSessionToken(um, token)
  {
    RolesAsWrittenNotNested();
  }
}

=== FILE: world_adapter.dfy ===
/**
  The dictionary-based world adapter: the buffer between a node net and a
  world. Datasources carry values from the world to the net, datatargets
  carry values from the net to the world, and datatarget feedback reports
  back whether an actuator's action succeeded. All three are dictionaries
  from name to value; the names are exposed in sorted order and bulk
  reads and writes are positional against that order.
 */
module WorldAdapters {
  import opened Outcome
  import StringOrder

  datatype WorldAdapter = WorldAdapter(
    datasources: map<string, real>,
    datatargets: map<string, real>,
    datatargetFeedback: map<string, real>)

  /** A freshly constructed adapter: all three dictionaries empty. */
  const Fresh := WorldAdapter(map[], map[], map[])

  /** A fresh adapter exposes no names, reads no values, and drops every addition. */
  lemma FreshExposesNothing(key: string, value: real)
    ensures AvailableDatasources(Fresh) == [] && AvailableDatatargets(Fresh) == []
    ensures GetDatasourceValue(Fresh, key).None? && GetDatatargetFeedbackValue(Fresh, key) == 0.0
    ensures GetDatatargetFeedbackValues(Fresh) == Ok([])
    ensures AddToDatatarget(Fresh, key, value) == Fresh
  {
  }

  /** A positional list of names lists a dictionary's keys exactly, each once, in order. */
  ghost predicate ListsKeys(names: seq<string>, keys: set<string>) {
    && |names| == |keys|
    && (forall k :: k in names <==> k in keys)
    && StringOrder.StrictlySorted(names)
  }

  /** Strictly sorted names are pairwise distinct. */
  lemma SortedDistinct(names: seq<string>, i: int, j: int)
    requires StringOrder.StrictlySorted(names)
    requires 0 <= i < |names| && 0 <= j < |names| && i != j
    ensures names[i] != names[j]
  {
  }

  function AvailableDatasources(wa: WorldAdapter): (names: seq<string>)
    ensures ListsKeys(names, wa.datasources.Keys)
  {
    StringOrder.SortedSet(wa.datasources.Keys)
  }

  function AvailableDatatargets(wa: WorldAdapter): (names: seq<string>)
    ensures ListsKeys(names, wa.datatargets.Keys)
  {
    StringOrder.SortedSet(wa.datatargets.Keys)
  }

  /** `datasources.get(key)`: `None` for an unknown name. */
  function GetDatasourceValue(wa: WorldAdapter, key: string): (r: Option<real>)
    ensures r.Some? <==> key in AvailableDatasources(wa)
    ensures r.Some? ==> key in wa.datasources && r.value == wa.datasources[key]
  {
    if key in wa.datasources then Some(wa.datasources[key]) else None
  }

  function GetDatasourceValues(wa: WorldAdapter): (vs: seq<real>)
    ensures |vs| == |AvailableDatasources(wa)|
  {
    var names := AvailableDatasources(wa);
    seq(|names|, i requires 0 <= i < |names| => wa.datasources[names[i]])
  }

  /** The bulk read agrees, position by position, with the single-name read. */
  lemma DatasourceValuesAligned(wa: WorldAdapter, i: int)
    requires 0 <= i < |AvailableDatasources(wa)|
    ensures GetDatasourceValue(wa, AvailableDatasources(wa)[i]) == Some(GetDatasourceValues(wa)[i])
  {
  }

  /** Accumulates into a known datatarget; an unknown name is silently ignored. */
  function AddToDatatarget(wa: WorldAdapter, key: string, value: real): (r: WorldAdapter)
    ensures r.datatargets.Keys == wa.datatargets.Keys
    ensures r.datasources == wa.datasources && r.datatargetFeedback == wa.datatargetFeedback
    ensures key in wa.datatargets ==> r.datatargets[key] == wa.datatargets[key] + value
    ensures forall k :: k in wa.datatargets && k != key ==> r.datatargets[k] == wa.datatargets[k]
    ensures key !in wa.datatargets ==> r == wa
  {
    if key in wa.datatargets then
      wa.(datatargets := wa.datatargets[key := wa.datatargets[key] + value])
    else
      wa
  }

  /**
    Two accumulations into a known target add the addends one after the
    other: the target holds `(v + a) + b`, where `v` is its value before,
    and every other target is untouched.
   */
  lemma AddToDatatargetAccumulates(wa: WorldAdapter, key: string, a: real, b: real)
    requires key in wa.datatargets
    ensures var w := AddToDatatarget(AddToDatatarget(wa, key, a), key, b);
      && w.datatargets[key] == (wa.datatargets[key] + a) + b
      && (forall k :: k in wa.datatargets && k != key ==> w.datatargets[k] == wa.datatargets[k])
  {
  }

  /** Accumulating into an unknown target, however often, changes nothing. */
  lemma AddToUnknownDatatargetIgnored(wa: WorldAdapter, key: string, a: real, b: real)
    requires key !in wa.datatargets
    ensures AddToDatatarget(AddToDatatarget(wa, key, a), key, b) == wa
  {
  }

  /** The outcome of a loop that may raise part-way: the state it leaves behind either way. */
  datatype Raised<T> = Done(state: T) | Raise(error: PyError, state: T)

  /** No name occurs twice. */
  predicate Distinct(names: seq<string>) {
    forall i, j :: 0 <= i < j < |names| ==> names[i] != names[j]
  }

  /**
    The loop `for i, key in enumerate(names): m[key] = values[i]`, stopped
    where `values` runs out: the first `|values|` names get their values,
    the rest keep theirs.
   */
  method AssignInOrder(m: map<string, real>, names: seq<string>, values: seq<real>) returns (m': map<string, real>)
    requires Distinct(names)
    requires forall k :: 0 <= k < |names| ==> names[k] in m
    ensures m'.Keys == m.Keys
    ensures forall j :: 0 <= j < |names| && j < |values| ==> m'[names[j]] == values[j]
    ensures forall j :: |values| <= j < |names| ==> m'[names[j]] == m[names[j]]
  {
    var n := if |values| < |names| then |values| else |names|;
    m' := m;
    var i := 0;
    while i < n
      invariant 0 <= i <= n
      invariant m'.Keys == m.Keys
      invariant forall j :: 0 <= j < i ==> m'[names[j]] == values[j]
      invariant forall j :: i <= j < |names| ==> m'[names[j]] == m[names[j]]
    {
      m' := m'[names[i] := values[i]];
      i := i + 1;
    }
  }

  /**
    Writes `values[i]` to the i-th sorted datatarget. A list shorter than the
    targets raises IndexError once the loop runs past its end, after the
    targets before that point have already been written.
   */
  method SetDatatargetValues(wa: WorldAdapter, values: seq<real>) returns (r: Raised<WorldAdapter>)
    ensures r.state.datasources == wa.datasources
    ensures r.state.datatargetFeedback == wa.datatargetFeedback
    ensures r.state.datatargets.Keys == wa.datatargets.Keys
    ensures r.Done? <==> |values| >= |wa.datatargets|
    ensures r.Raise? ==> r.error == IndexError
    ensures forall i :: 0 <= i < |AvailableDatatargets(wa)| && i < |values| ==>
      r.state.datatargets[AvailableDatatargets(wa)[i]] == values[i]
    ensures forall i :: |values| <= i < |AvailableDatatargets(wa)| ==>
      r.state.datatargets[AvailableDatatargets(wa)[i]] == wa.datatargets[AvailableDatatargets(wa)[i]]
  {
    var names := AvailableDatatargets(wa);
    assert Distinct(names) by {
      forall i, j | 0 <= i < j < |names|
        ensures names[i] != names[j]
      {
        SortedDistinct(names, i, j);
      }
    }
    var targets := AssignInOrder(wa.datatargets, names, values);
    var state := wa.(datatargets := targets);
    if |values| < |names| {
      r := Raise(IndexError, state);
    } else {
      r := Done(state);
    }
  }

  /** `datatarget_feedback.get(key, 0)`. */
  function GetDatatargetFeedbackValue(wa: WorldAdapter, key: string): (r: real)
    ensures key !in wa.datatargetFeedback ==> r == 0.0
  {
    if key in wa.datatargetFeedback then wa.datatargetFeedback[key] else 0.0
  }

  /**
    Reads the feedback of every sorted datatarget; a datatarget that has no
    recorded feedback raises KeyError (unlike the single-name read, which
    defaults to 0).
   */
  function GetDatatargetFeedbackValues(wa: WorldAdapter): (r: Result<seq<real>>)
    ensures r.Ok? <==> wa.datatargets.Keys <= wa.datatargetFeedback.Keys
    ensures r.Err? ==> r.error == KeyError
    ensures r.Ok? ==> |r.value| == |AvailableDatatargets(wa)|
  {
    var names := AvailableDatatargets(wa);
    if forall i | 0 <= i < |names| :: names[i] in wa.datatargetFeedback then
      Ok(seq(|names|, i requires 0 <= i < |names| => wa.datatargetFeedback[names[i]]))
    else
      Err(KeyError)
  }

  /** When the bulk feedback read succeeds it agrees with the single-name read. */
  lemma FeedbackValuesAligned(wa: WorldAdapter, i: int)
    requires GetDatatargetFeedbackValues(wa).Ok?
    requires 0 <= i < |AvailableDatatargets(wa)|
    ensures GetDatatargetFeedbackValues(wa).value[i]
      == GetDatatargetFeedbackValue(wa, AvailableDatatargets(wa)[i])
  {
  }

  /** Records feedback for any name, target or not. */
  function SetDatatargetFeedbackValue(wa: WorldAdapter, key: string, value: real): (r: WorldAdapter)
    ensures r.datasources == wa.datasources && r.datatargets == wa.datatargets
    ensures r.datatargetFeedback.Keys == wa.datatargetFeedback.Keys + {key}
  {
    wa.(datatargetFeedback := wa.datatargetFeedback[key := value])
  }

  /** Reading feedback back returns what was just set, and no other name's feedback moves. */
  lemma FeedbackRoundTrip(wa: WorldAdapter, key: string, value: real, other: string)
    requires other != key
    ensures GetDatatargetFeedbackValue(SetDatatargetFeedbackValue(wa, key, value), key) == value
    ensures GetDatatargetFeedbackValue(SetDatatargetFeedbackValue(wa, key, value), other)
      == GetDatatargetFeedbackValue(wa, other)
  {
  }

  /** Zeros every datatarget, keeping the set of names. */
  function ResetDatatargets(wa: WorldAdapter): (r: WorldAdapter)
    ensures r.datatargets.Keys == wa.datatargets.Keys
    ensures forall k :: k in r.datatargets ==> r.datatargets[k] == 0.0
    ensures r.datasources == wa.datasources && r.datatargetFeedback == wa.datatargetFeedback
  {
    wa.(datatargets := map k | k in wa.datatargets :: 0.0)
  }

  /**
    One world iteration: the concrete adapter's hook (any function of the
    adapter's state) reads the targets and fills the sources; then every
    target is zeroed.
   */
  function Update(wa: WorldAdapter, hook: WorldAdapter -> WorldAdapter): (r: WorldAdapter)
    ensures r.datatargets.Keys == hook(wa).datatargets.Keys
    ensures forall k :: k in r.datatargets ==> r.datatargets[k] == 0.0
    ensures r.datasources == hook(wa).datasources
    ensures r.datatargetFeedback == hook(wa).datatargetFeedback
  {
    ResetDatatargets(hook(wa))
  }

  // The `Default` adapter: three example datasources and one "echo" target.

  /** The "echo" datatarget's name. */
  const Echo := "echo"

  /**
    The `Default` adapter's hook: a nonzero "echo" target is copied to its
    feedback; "static_on" becomes 1 and "random" a draw from [0, 1], passed
    in as `random`.
   */
  function DefaultHook(wa: WorldAdapter, random: real): (r: WorldAdapter)
    requires Echo in wa.datatargets
    requires 0.0 <= random <= 1.0
    ensures r.datatargets == wa.datatargets
    ensures wa.datatargets[Echo] != 0.0 ==> r.datatargetFeedback == wa.datatargetFeedback[Echo := wa.datatargets[Echo]]
    ensures wa.datatargets[Echo] == 0.0 ==> r.datatargetFeedback == wa.datatargetFeedback
    ensures r.datasources.Keys == wa.datasources.Keys + {"static_on", "random"}
    ensures r.datasources["static_on"] == 1.0 && r.datasources["random"] == random
    ensures forall k :: k in wa.datasources && k != "static_on" && k != "random" ==>
      r.datasources[k] == wa.datasources[k]
  {
    var fb := if wa.datatargets[Echo] != 0.0
      then wa.datatargetFeedback[Echo := wa.datatargets[Echo]]
      else wa.datatargetFeedback;
    WorldAdapter(wa.datasources["static_on" := 1.0]["random" := random], wa.datatargets, fb)
  }

  /** The `Default` adapter as constructed, after its first hook run. */
  function DefaultAdapter(random: real): (r: WorldAdapter)
    requires 0.0 <= random <= 1.0
    ensures r.datasources.Keys == {"random", "static_off", "static_on"}
    ensures r.datatargets == map[Echo := 0.0]
    ensures r.datasources["static_on"] == 1.0 && r.datasources["static_off"] == 0.0
    ensures r.datasources["random"] == random
    ensures GetDatatargetFeedbackValue(r, Echo) == 0.0
  {
    var initial := WorldAdapter(
      map["static_on" := 0.0, "random" := 0.0, "static_off" := 0.0],
      map[Echo := 0.0],
      map[Echo := 0.0]);
    DefaultHook(initial, random)
  }

  /** What an agent reads after the hook: the constant source, the draw, and every other source as before. */
  lemma DefaultHookReads(wa: WorldAdapter, random: real, key: string)
    requires Echo in wa.datatargets
    requires 0.0 <= random <= 1.0
    ensures GetDatasourceValue(DefaultHook(wa, random), "static_on") == Some(1.0)
    ensures GetDatasourceValue(DefaultHook(wa, random), "random") == Some(random)
    ensures key != "static_on" && key != "random" ==>
      GetDatasourceValue(DefaultHook(wa, random), key) == GetDatasourceValue(wa, key)
  {
  }

  /** One world iteration of the `Default` adapter. */
  function DefaultUpdate(wa: WorldAdapter, random: real): (r: WorldAdapter)
    requires Echo in wa.datatargets
    requires 0.0 <= random <= 1.0
    ensures Echo in r.datatargets
  {
    // Dead `else`: the hook runs on `wa`, which has "echo" by the requires (the source would raise KeyError).
    Update(wa, (w: WorldAdapter) => if Echo in w.datatargets then DefaultHook(w, random) else w)
  }

  /**
    The echo: an action written to "echo" comes back as its feedback after
    one world iteration, and the target itself is cleared for the next cycle.
   */
  lemma {:induction false} DefaultEchoesAction(wa: WorldAdapter, value: real, random: real)
    requires Echo in wa.datatargets && wa.datatargets[Echo] == 0.0
    requires value != 0.0
    requires 0.0 <= random <= 1.0
    ensures var u := DefaultUpdate(AddToDatatarget(wa, Echo, value), random);
      GetDatatargetFeedbackValue(u, Echo) == value && u.datatargets[Echo] == 0.0
  {
    var added := AddToDatatarget(wa, Echo, value);
    assert added.datatargets[Echo] == value;
    var hooked := DefaultHook(added, random);
    assert hooked.datatargetFeedback[Echo] == value;
  }
}
